=== FILE: README.md ===
# brain_mask decision logic in Dafny

This project models the orchestration and resolution layer of the
`brain_mask` repository, which makes brain masks from MRI studies with a
trained CNN:

- **Mask generation** (`brain_mask.py`). The script validates the logging
  level, discovers the case directories under an input directory, and
  normalises the output suffix. `batch_mask` then checks the
  configuration and runs each case through one classification: skipped
  for a missing input image, skipped because the mask already exists,
  succeeded (recorded in `outnames`), or failed (recorded in `failed`).
- **Evaluation** (`evaluate.py`). The script prepares the evaluation log
  and resolves which checkpoint to load: `last`, `best`, or an explicit
  name. It checks user-supplied data directories, picks the evaluation
  data by a first-match fallback chain, and pairs metric names with
  evaluation results.

The filesystem is abstract: `FileSystems.FileSystem` is a set of files and
a set of directories. Each directory is recorded under the spelling `glob`
returns it, without trailing separators. The filesystem is assumed well
formed: for every entry containing a separator, the part before its last
separator is itself a directory, unless it is empty: the entry then sits
in the root (as `/data` does), which is not recorded either. A relative
entry without a separator sits in the current directory, which is not
recorded. The empty path names neither a file nor a directory, since
`os.path.isfile("")` and `os.path.isdir("")` are false; the predicates
`FileSystems.IsFile` and `FileSystems.IsDir` say so whatever the sets
hold.
`os.path.isdir` and the directory part of a `glob` pattern ignore trailing
separators, so both go through `FileSystems.CanonicalDir`. All other path
comparisons are literal.

Python's string and path helpers are modelled with their exact behaviour
(`Text`, `Paths`):

- `str.find`, `str.split(...)[0]`, `str.rsplit` and `str.rstrip`;
- string ordering;
- `posixpath.join`, `basename` and `dirname`.

`glob` is the predicate `FileSystems.Glob`. In `*<tail>` the `*` matches
any run of characters without a separator, possibly none. The entry it
lists has a non-empty name that does not start with a dot. In
`*/*.nii.gz` the first `*` matches directories only
(`FileSystems.MatchesNested`).

Inference plus post-processing (`predict` followed by `convert_prob`) is an
oracle, `Batch.Predictor`. It is given the filesystem, the case directory,
the directory handed to inference and the mask path. It returns the
filesystem afterwards and the path post-processing reported.

The following are parameters:

- checkpoint creation times, as `string -> nat`;
- the parsing of loss strings (`float`), as `string -> Option<real>`;
- the study-directory manifest, as a map from split name to directory list.

`batch_mask` is a method with a loop. Its state, `Batch.Report`, carries:

- the two returned lists;
- the lists of skipped cases;
- the outcome of every case;
- the filesystem;
- the number of session releases.

Its contract ties the loop to a functional reference semantics,
`Batch.Run`, and states the partition of cases into the four outcomes.

Modules, in dependency order:

| file | module | contents |
|---|---|---|
| wrappers.dfy | `Wrappers` | `Option`, `Result` |
| text.dfy | `Text` | Python string operations, string order, sorted insertion, subsequences |
| paths.dfy | `Paths` | `posixpath.join`, `basename`, `dirname` |
| filesystem.dfy | `FileSystems` | the abstract filesystem and glob matching |
| mask_cli.dfy | `MaskCli` | argument handling of the mask script |
| batch.dfy | `Batch` | `batch_mask` |
| checkpoints.dfy | `Checkpoints` | checkpoint selection |
| evaluation.dfy | `Evaluation` | evaluation log, data resolution, metric report, script order |

Three behaviours of the code are kept exactly:

- **Checkpoint ties.** `last` uses Python's `max` and `best` uses
  `np.argmin`. On equal creation times or equal losses, both keep the
  first extremal checkpoint in listing order. The model does the same
  (`Checkpoints.FirstMaxIndex`, `Checkpoints.FirstMinIndex`).
- **Missing "eval" split.** The code indexes the manifest's "eval" entry
  directly. A missing entry raises `KeyError`, and an empty one raises
  `FileNotFoundError`. The model keeps the two errors apart
  (`Evaluation.MissingEvalSplit`, `Evaluation.NoEvalDirectories`).
- **Empty checkpoint listing.** `last` on an empty listing fails inside
  `max`. `best` on an empty listing fails inside `np.argmin`, within the
  `try`, so it raises the same error as an unparsable loss. The model
  gives `EmptyListing` and `BestUndetermined` respectively.

## Model

| member | source | states |
|---|---|---|
| `MaskCli.LoggerLevel` | brain_mask.py:136-143 | the level is accepted exactly when it parses as an integer from 1 to 5; level n becomes logging constant 10·n; a non-integer and an out-of-range level give their own errors |
| `MaskCli.CaseDirs` | brain_mask.py:150-151 | the parents of the images one level down are exactly the sub-directories of the input directory, found under its spelling without trailing separators, that directly hold a `.nii.gz` image |
| `MaskCli.DiscoverCases` | brain_mask.py:145-156 | an empty argument and a non-directory are errors; discovery succeeds exactly when the argument is a directory (trailing separators ignored) holding an image directly or in a sub-directory; when images sit directly in it the result is exactly the argument as written; otherwise it is strictly sorted (so duplicate-free), non-empty, and holds exactly the sub-directories with images; no image at either level is FileNotFoundError |
| `MaskCli.SortedList` | brain_mask.py:156 | `sorted` of a set of paths is strictly increasing in Python's string order and holds exactly the elements of the set |
| `MaskCli.NormalizeSuffix` | brain_mask.py:178-183 | a suffix not ending in `.nii.gz` is unchanged; one ending in it is cut just before the first occurrence of `.nii.gz`, and the result contains no `.nii.gz` |
| `MaskCli.NormalizeSuffixIdempotent` | brain_mask.py:182-183 | normalising a suffix twice gives the same as normalising it once |
| `MaskCli.CheckOutDir` | brain_mask.py:167-169 | a non-empty output directory must exist; an absent or empty one is accepted; the argument is passed on unchanged |
| `Text.BeforeFirst` | brain_mask.py:183 | `split(sep)[0]`: a prefix of the text without any occurrence of the separator, ending where the first occurrence begins (or the whole text) |
| `Text.InsertSorted` | brain_mask.py:156 | inserting into a strictly sorted list keeps it strictly sorted and adds exactly the new element |
| `Text.SortedUnique` | brain_mask.py:151-156 | two strictly sorted lists with the same elements are equal, so the sorted case list is determined by the set of case directories |
| `Text.LessIrreflexive` | brain_mask.py:156 | no string sorts before itself in Python's string order |
| `Text.LessTransitive` | brain_mask.py:156 | Python's string order is transitive |
| `Text.LessTotal` | brain_mask.py:156 | of two different strings one sorts before the other, so `sorted` has a single answer |
| `Paths.Join` | brain_mask.py:75 | `os.path.join` ends with its second argument and, unless that is absolute, starts with its first |
| `Paths.Basename` | brain_mask.py:74 | `os.path.basename` is a separator-free suffix of the path that begins at the start of the path or right after a separator |
| `Paths.Dirname` | brain_mask.py:59 | `os.path.dirname` is a prefix of its argument |
| `Paths.JoinSplit` | brain_mask.py:74-75 | for a directory without a trailing separator and a name without separators, `dirname` and `basename` of their join give back the directory and the name |
| `FileSystems.CanonicalDir` | brain_mask.py:147-150 | the spelling under which a directory argument is found: a prefix of the argument whose remainder is all separators; it does not end in a separator unless the argument is only separators, which is kept whole; an argument not ending in a separator is its own spelling |
| `FileSystems.GlobByName` | brain_mask.py:68 | `glob(d + "/*" + tail)` is non-empty exactly when directory `d` holds an entry whose name is non-empty, not hidden, and ends with `tail` |
| `FileSystems.NestedByName` | brain_mask.py:150-151 | `glob(d + "/*/*" + tail)` lists exactly the entries ending in `tail`, with non-hidden names, of the non-hidden sub-directories of `d` |
| `FileSystems.TrailingSeparatorSameDir` | brain_mask.py:147-150 | a trailing separator on a directory argument that is not only separators changes neither `os.path.isdir` nor what `glob` finds in it |
| `FileSystems.TrailingSeparatorExample` | brain_mask.py:147-149 | `-i data/`, with `data` a directory holding `x.nii.gz`, passes the directory check and finds the image directly |
| `FileSystems.GlobMonotone` | brain_mask.py:68 | adding entries never makes a non-empty glob empty |
| `Batch.Configure` | brain_mask.py:47-61 | configuration succeeds exactly when the given names, if any, are exactly as many as the required suffixes and the model directory is an existing directory (never the empty path); given names replace the required suffixes wholesale, else the length assertion fails; "same" resolves to the parameter file's directory; a missing model directory, checked after the names, is ValueError |
| `Batch.SameWithBareParamFile` | brain_mask.py:57-61 | with "same" and a parameter file named without a directory, the model directory is the empty path and the configuration fails with ValueError whatever the filesystem holds |
| `Batch.CaseId` | brain_mask.py:74 | the identifier has no separator and is the last component of the case path after removing one trailing separator |
| `Batch.CaseIdIgnoresTrailingSeparator` | brain_mask.py:74 | a case path with one trailing separator has the same identifier as without it |
| `Batch.TrailingSeparatorSameCase` | brain_mask.py:66-75 | a case directory written with one trailing separator misses the same inputs and gets the same mask path as without it |
| `Batch.MissingSuffixesSameDir` | brain_mask.py:66-70 | two spellings of the same directory miss the same required inputs |
| `Batch.MaskPath` | brain_mask.py:74-75 | the mask path starts with the case directory (never the output directory) and ends with `<id>_<suffix>.nii.gz` |
| `Batch.MaskPathInCaseDir` | brain_mask.py:74-75 | the mask lies directly in the case directory and is named `<id>_<suffix>.nii.gz` |
| `Batch.OutDirList` | brain_mask.py:32-35 | entry i of `out_dir`, which inference of case i receives at brain_mask.py:83, is the given output directory, or the case directory itself when none was given; there is one entry per case |
| `Batch.MissingSuffixes` | brain_mask.py:66-70 | the reported suffixes are exactly the required ones without a matching image, and there are none exactly when all inputs are present |
| `Batch.CheckInputs` | brain_mask.py:66-72 | the loop over the required suffixes collects exactly those without a matching image, in checking order |
| `Batch.ProcessCase` | brain_mask.py:64-94 | a case is skipped for missing input exactly when a required image is absent, and then the filesystem is untouched; with overwrite off an existing mask skips the case untouched; otherwise the predictor runs, and the case succeeds with the returned path exactly when that path is non-empty and names an existing file afterwards, else fails |
| `Batch.MaskCase` | brain_mask.py:64-94 | the loop body classifies one case as `ProcessCase` does |
| `Batch.RunOutcomeAt` | brain_mask.py:63-94 | each case is decided on the filesystem the earlier cases left behind, and later cases never revise its outcome |
| `Batch.Run` | brain_mask.py:63-94 | the reference semantics of the loop yields one outcome per case |
| `Batch.RecordNext` | brain_mask.py:63-94 | one iteration appends the case to exactly one of the four lists and keeps the loop state in step with the reference semantics |
| `Batch.BatchMask` | brain_mask.py:28-103 | configuration errors are raised before any case runs; otherwise the outcomes are those of the reference semantics; `outnames` holds the returned paths of the successes and `failed` the directories of the failures, in input order; every case lands in exactly one of the four groups, so `|outnames| + |failed| <= |infer_direcs|`; `failed` is a subsequence of the input; the session is released exactly once |
| `Batch.PartitionCount` | brain_mask.py:63-94 | the four outcome groups partition the cases, and there is one recorded path per success |
| `Batch.CasesOfSubsequence` | brain_mask.py:63 | the cases of each outcome keep their input order |
| `Batch.SkipIgnoresPredictor` | brain_mask.py:66-83 | a case skipped for missing input or an existing mask never reaches the predictor: its outcome does not depend on it |
| `Batch.OverwriteNeverSkipsExisting` | brain_mask.py:77-80 | with overwrite set no case is skipped because its mask exists |
| `Batch.EmptyReturnedPathFails` | brain_mask.py:82-94 | when the predictor runs and hands back the empty path, the case is recorded as failed, whatever the filesystem afterwards holds |
| `Batch.ExistingMaskSkips` | brain_mask.py:77-80 | with overwrite off, a case whose inputs are present and whose mask exists is skipped as existing |
| `Batch.OverwriteRuns` | brain_mask.py:77-80 | with overwrite set a single case is never skipped as existing |
| `Batch.RerunSkipsDone` | brain_mask.py:74-92 | with overwrite off and a predictor that returns the mask path and deletes nothing, a case that ended with a mask is skipped as existing when the batch runs again on the resulting filesystem |
| `Batch.SecondRunProducesNothing` | brain_mask.py:63-94 | under the same conditions, when every case ended with a mask, a second run records no mask and no failure and leaves the filesystem as the first run left it |
| `Batch.ProducedAreMasks` | brain_mask.py:75-92 | with a predictor that returns the mask path, `outnames` is the list of mask paths of the successful cases, in input order |
| `Checkpoints.FirstMaxIndex` | evaluate.py:114-115 | the chosen index holds the greatest creation time, and every earlier index holds a strictly smaller one |
| `Checkpoints.FirstMinIndex` | evaluate.py:118-119 | the chosen index holds the smallest loss, and every earlier index holds a strictly greater one |
| `Checkpoints.FirstMaxUnique` | evaluate.py:114-115 | at most one index is the first maximum, so `last` is fully determined |
| `Checkpoints.FirstMinUnique` | evaluate.py:118-119 | at most one index is the first minimum, so `best` is fully determined |
| `Checkpoints.Stem` | evaluate.py:118 | `path[0:-5]` is the path without its last five characters, and empty for shorter paths |
| `Checkpoints.LossText` | evaluate.py:118 | the loss text is the part of the stem after its last underscore (all of it when there is none) and contains no underscore |
| `Checkpoints.ResolveCheckpoint` | evaluate.py:112-128 | `last` fails only on an empty listing and otherwise picks the first checkpoint of greatest creation time; `best` fails exactly when the listing is empty or some loss does not parse, with no partial choice, and otherwise picks the first checkpoint of smallest loss; any other selector is accepted exactly when `<model_dir>/checkpoints/<name>.hdf5` exists, and that path is the result |
| `Checkpoints.NamedCheckpoint` | evaluate.py:125-126 | the file an explicit selector names starts with the model directory and ends with `checkpoints/<name>.hdf5` |
| `Checkpoints.NamedCheckpointInDirectory` | evaluate.py:112-126 | for a selector without separators that file lies directly in `<model_dir>/checkpoints`, the directory `last` and `best` list, and is named `<name>.hdf5` |
| `Checkpoints.ModesIgnoreNamedFiles` | evaluate.py:114-128 | `last` and `best` do not depend on which files exist, so they take precedence over files of the same name |
| `Checkpoints.LastOfTwo` | evaluate.py:114-115 | of two checkpoints `last` picks the later one, and the first on equal creation times |
| `Evaluation.PrepareEvalLog` | evaluate.py:96-101 | afterwards the evaluation directory exists; the old log survives exactly when it existed and overwrite is off; no other file or directory changes |
| `Evaluation.PrepareEvalLogIdempotent` | evaluate.py:96-101 | preparing the log twice is the same as preparing it once |
| `Evaluation.EvalCache` | evaluate.py:25-26 | the saved-dataset location starts with the model directory and ends with `dataset/eval` |
| `Evaluation.EvalCacheCanonical` | evaluate.py:25-35 | that location does not end in a separator, so it is its own canonical spelling and `os.path.isdir` on it is membership in the directories |
| `Evaluation.CheckDirectories` | evaluate.py:131-133 | an absent or empty directory list leaves the data directories unset; a given list is accepted exactly when every entry is an existing directory (trailing separators ignored, the empty path never one), and is kept as given |
| `Evaluation.EmptyDirectoryRejected` | evaluate.py:131-133 | a directory list holding the empty path fails the assertion whatever the filesystem holds |
| `Evaluation.ResolveEvalData` | evaluate.py:24-46 | directories come either from the command line or from a non-empty "eval" split; the saved dataset is used only without command-line directories and when it exists; failure happens only when neither of those applies, as KeyError exactly when the split is missing and FileNotFoundError exactly when it is empty |
| `Evaluation.ExplicitDirectoriesWin` | evaluate.py:28-31 | given directories are the data whatever the filesystem and the manifest hold |
| `Evaluation.SavedDatasetWins` | evaluate.py:34-36 | without given directories an existing saved dataset is used whatever the manifest holds |
| `Evaluation.ManifestIsLastResort` | evaluate.py:39-46 | without given directories or a saved dataset, resolution succeeds exactly when the "eval" split exists and is non-empty, and then yields that split |
| `Evaluation.ReportMetrics` | evaluate.py:58-62 | line i pairs `([loss] + metrics)[i]` with result i, the loss first; there are as many lines as names, or, with too few results, as many as results followed by IndexError; extra results are not reported |
| `Evaluation.ReportUnzips` | evaluate.py:61-62 | the names of the report lines are a prefix of `[loss] + metrics` and their values the matching prefix of the results |
| `Evaluation.PrepareEvaluation` | evaluate.py:96-136 | the log is prepared whatever fails afterwards; a checkpoint error comes first, then a directory error, then a data error, each passed through unchanged; the set-up succeeds exactly when all three resolutions succeed, and then holds the resolved checkpoint and data |

## Left out

- TensorFlow set-up and teardown is left out because it is framework side effects. This covers:
  - GPU memory growth (brain_mask.py:17-24);
  - `tf.distribute` and `tf.random.set_seed`;
  - the `CUDA_VISIBLE_DEVICES` change under `--force_cpu`;
  - the TensorFlow log levels.
  `clear_session` is only counted (`Report.clearSessions`).
- `predict` and `convert_prob` are foreign numeric code. They are the oracle `Batch.Predictor`, which only says what the filesystem looks like afterwards and which path was returned. `thresh`, `clean` and `prob` only reach these, so they are not modelled.
- `model_fn`, `load_weights`, `model.evaluate`, `InputFunctions.get_dataset`, `tf.data.experimental.load` and `get_study_dirs` are opaque library code:
  - the evaluation results are a sequence of reals;
  - the manifest is a map;
  - the saved dataset is its path.
- The case where `model.evaluate` returns a bare scalar, which makes `eval_results[i]` a TypeError, is left out. The results are always a sequence.
- Reading `Params` files (`load_param_file`, `Params`), argparse and logger set-up are I/O. `Batch.Params` holds the two fields the batch reads.
- The parameter-file assertions of the evaluation script (evaluate.py:86-87) are left out. They only guard the loading of parameters, which is I/O.
- Log messages and the `:0.4f` number format are left out as I/O. The metric report keeps the name/value pairs.
- The model-name check and parameter-file path of the mask script (brain_mask.py:159-165) are left out. They depend on the script's own install location.
- Float parsing is left out:
  - of the threshold (brain_mask.py:171-176);
  - of checkpoint losses, which become the uninterpreted `parse` parameter, with losses compared as reals (no NaN or infinity).
- `MaskCli.LoggerLevel` takes the result of `int()` as an `Option<int>`. The parsing of the text itself is not modelled.
- The suffix type check (brain_mask.py:179-180) is left out: the suffix is always a string here.
- Real timestamps are left out. Creation times are an abstract `string -> nat`.
- The listing of `<model_dir>/checkpoints/*.hdf5` is a parameter of `Checkpoints.ResolveCheckpoint`, in listing order. Its relation to the filesystem is not modelled, because glob order is unspecified.
- A non-list `infer_direcs` with no output directory is left out. The source wraps it in a list only after building the output directories, so `out_dir[i]` indexes single characters of the path. The model always takes a list of case directories.
- Path normalisation beyond trailing separators (`realpath`, `..`, `.`, repeated separators inside a path) is left out. Apart from the trailing separators that `isdir` and `glob` ignore, paths are compared literally.
- Required suffixes and the output suffix are taken to hold no separator and no glob metacharacter (`*`, `?`, `[`). Such characters would change the pattern `glob` sees; the model matches suffixes literally.
- Directory paths holding a glob metacharacter (`*`, `?` or `[`) are left out. `glob` reads such a directory part as a pattern (`scans[2020]` matches `scans2` or `scans0`, never itself), while the model matches it literally. Modelling it would need glob's pattern language on whole paths. The affected members each have a line below.
- `FileSystems.GlobByName`: for a directory path holding `*`, `?` or `[`, the entries are looked up under the literal path, while `glob` at brain_mask.py:68 reads that path as a pattern.
- `FileSystems.NestedByName`: the same literal reading of the directory `d` in `d/*/*.nii.gz` (brain_mask.py:150-151).
- `MaskCli.CaseDirs`: an input directory path holding `*`, `?` or `[` is matched literally here, while `glob` at brain_mask.py:151 reads it as a pattern.
- `MaskCli.DiscoverCases`: for an input directory such as `scans[2020]` that holds images, the model succeeds, while both globs at brain_mask.py:148-151 read the path as a pattern, usually find nothing, and raise FileNotFoundError.
- `Batch.MissingSuffixes`: a case path holding `*`, `?` or `[` is matched literally here, while `glob` at brain_mask.py:68 reads it as a pattern and usually misses every suffix.
- `Batch.CheckInputs`: computes `Batch.MissingSuffixes`, so it carries the same literal reading of case paths with glob metacharacters.
- `Batch.ProcessCase`: a case such as `s[1]` holding `s[1]/x_T1.nii.gz` runs the predictor here, while the source skips it for missing input at brain_mask.py:68-72.
- Filesystems that are not well formed, with an entry whose non-empty parent is not a directory, are left out. They have no counterpart on a disk, and the model is not meant to agree with `glob` on them.
- `Batch.BatchMask`: the predictor oracle always returns. In the source, an exception in `predict` or `convert_prob`, or `convert_prob` returning `None` (which makes `os.path.isfile(None)` at brain_mask.py:89 a TypeError), ends the batch before `clear_session` (brain_mask.py:97). The model does not promise the session release or the partial lists in that case.
- `Batch.Run`: its own contract states only that there is one outcome per case. How each outcome is decided is stated by `Batch.RunOutcomeAt` and `Batch.ProcessCase`, not repeated on `Run`.
- The ways `os.mkdir` can fail are left out: a missing parent, or a file in the way. `Evaluation.PrepareEvalLog` always succeeds.
- The effect of `set_logger` on the log file after it is prepared is left out, as it is logging I/O.

=== FILE: batch.dfy ===
/** `batch_mask`: the per-case loop that turns a list of case directories
    into masks. Inference and post-processing are one oracle, the
    `Predictor`, which says what the filesystem looks like after a case was
    run and which path post-processing returned. */
module Batch {
  import opened Wrappers
  import opened Text
  import opened Paths
  import opened FileSystems

  /** The fields of the parameter file the batch reads: the required input
      suffixes (`data_prefix`) and the model directory. */
  datatype Params = Params(dataPrefix: seq<string>, modelDir: string)

  /** The `names` argument: absent, a single suffix, or a list of them. */
  datatype Names = NoNames | OneName(name: string) | NameList(names: seq<string>)

  datatype ConfigError =
    | NamesLengthMismatch(given: nat, expected: nat)  // the `names` length assertion failed
    | ModelDirMissing(dir: string)                     // ValueError: model directory does not exist

  /** Python truthiness of `names`: `None`, "" and [] are false. */
  predicate NamesGiven(names: Names) {
    match names
    case NoNames => false
    case OneName(s) => s != ""
    case NameList(l) => |l| > 0
  }

  /** `names` as a list; a single suffix is wrapped into one. */
  function NameSeq(names: Names): seq<string> {
    match names
    case NoNames => []
    case OneName(s) => [s]
    case NameList(l) => l
  }

  /** The model directory after resolving the value "same", which stands
      for the directory holding the parameter file. */
  function ModelDir(params: Params, paramFile: string): string {
    if params.modelDir == "same" then Dirname(paramFile) else params.modelDir
  }

  /** The set-up `batch_mask` does before its loop: given names replace the
      required suffixes wholesale and must be exactly as many; the model
      directory must exist. */
  function Configure(params: Params, paramFile: string, names: Names, fs: FileSystem): (r: Result<Params, ConfigError>)
    ensures r.Success? ==> |r.value.dataPrefix| == |params.dataPrefix|
    ensures r.Success? ==> r.value.dataPrefix == if NamesGiven(names) then NameSeq(names) else params.dataPrefix
    ensures r.Success? ==> r.value.modelDir == ModelDir(params, paramFile) && IsDir(fs, r.value.modelDir)
    ensures r.Success? <==>
      (!NamesGiven(names) || |NameSeq(names)| == |params.dataPrefix|) && IsDir(fs, ModelDir(params, paramFile))
    ensures NamesGiven(names) && |NameSeq(names)| != |params.dataPrefix| ==>
      r == Failure(NamesLengthMismatch(|NameSeq(names)|, |params.dataPrefix|))
    ensures r.Failure? && r.error.ModelDirMissing? <==>
      (!NamesGiven(names) || |NameSeq(names)| == |params.dataPrefix|) && !IsDir(fs, ModelDir(params, paramFile))
  {
    var prefix := params.dataPrefix;
    if NamesGiven(names) && |NameSeq(names)| != |prefix| then
      Failure(NamesLengthMismatch(|NameSeq(names)|, |prefix|))
    else
      var prefix' := if NamesGiven(names) then NameSeq(names) else prefix;
      var dir := ModelDir(params, paramFile);
      if !IsDir(fs, dir) then Failure(ModelDirMissing(dir))
      else Success(Params(prefix', dir))
  }

  /** `"same"` with a parameter file named without a directory makes the
      model directory the empty path, which is never a directory: the
      configuration fails whatever the filesystem holds. */
  lemma SameWithBareParamFile(params: Params, paramFile: string, names: Names, fs: FileSystem)
    requires params.modelDir == "same" && '/' !in paramFile
    requires !NamesGiven(names) || |NameSeq(names)| == |params.dataPrefix|
    ensures Configure(params, paramFile, names, fs) == Failure(ModelDirMissing(""))
  {
    assert LastIndexOf(paramFile, '/') == None;
    assert ModelDir(params, paramFile) == "";
  }

  /** Runs inference and post-processing on one case: given the filesystem,
      the case directory, the directory handed to inference and the mask
      path, it yields the filesystem afterwards and the path that
      post-processing returned. */
  type Predictor = (FileSystem, string, string, string) -> (FileSystem, string)

  /** Everything the loop needs besides the case list. */
  datatype Job = Job(
    prefixes: seq<string>,
    suffix: string,
    overwrite: bool,
    outDir: Option<string>,
    predict: Predictor)

  /** The directory inference receives for a case: the case directory itself
      when no output directory was given. */
  function OutDirFor(job: Job, direc: string): string {
    match job.outDir
    case None => direc
    case Some(o) => o
  }

  /** The list `out_dir` the script builds before the loop: the case
      directories themselves when no output directory was given, otherwise
      the output directory once per case. Entry `i` is what inference of
      case `i` receives. */
  function OutDirList(job: Job, direcs: seq<string>): (r: seq<string>)
    ensures |r| == |direcs|
    ensures forall i :: 0 <= i < |direcs| ==> r[i] == OutDirFor(job, direcs[i])
  {
    match job.outDir
    case None => direcs
    case Some(o) => seq(|direcs|, _ => o)
  }

  /** The identifier of a case: the last component of its path after
      removing one trailing separator. */
  function CaseId(direc: string): (r: string)
    ensures '/' !in r
    ensures var base := if EndsWith(direc, "/") then direc[..|direc| - 1] else direc;
      EndsWith(base, r) && (|r| == |base| || base[|base| - |r| - 1] == '/')
  {
    Basename(if EndsWith(direc, "/") then direc[..|direc| - 1] else direc)
  }

  /** Where the mask of a case goes: inside the case directory itself, never
      in the output directory, named `<id>_<suffix>.nii.gz`. */
  function MaskPath(direc: string, suffix: string): (r: string)
    ensures StartsWith(r, direc)
    ensures EndsWith(r, CaseId(direc) + "_" + suffix + ImageExt)
  {
    var id := CaseId(direc);
    var name := id + "_" + suffix + ImageExt;
    assert name[0] != '/' by {
      if id == "" {
        assert name[0] == '_';
      } else {
        assert name[0] == id[0];
      }
    }
    Join(direc, name)
  }

  /** For a case directory without a trailing separator and a suffix without
      one, `os.path.dirname` of the mask path is the case directory and its
      basename is `<id>_<suffix>.nii.gz`. */
  lemma MaskPathInCaseDir(direc: string, suffix: string)
    requires direc != "" && direc[|direc| - 1] != '/'
    requires '/' !in suffix
    ensures Dirname(MaskPath(direc, suffix)) == direc
    ensures Basename(MaskPath(direc, suffix)) == CaseId(direc) + "_" + suffix + ImageExt
  {
    var name := CaseId(direc) + "_" + suffix + ImageExt;
    assert '/' !in name by {
      assert forall i :: 0 <= i < |name| ==> name[i] in CaseId(direc) || name[i] in "_" + suffix + ImageExt;
    }
    JoinSplit(direc, name);
  }

  /** One trailing separator does not change the identifier. */
  lemma CaseIdIgnoresTrailingSeparator(direc: string)
    requires !EndsWith(direc, "/")
    ensures CaseId(direc + "/") == CaseId(direc)
  {
    var d := direc + "/";
    assert EndsWith(d, "/") && d[..|d| - 1] == direc;
  }

  /** A case written with one trailing separator is the same case: the
      same inputs are found missing and the mask goes to the same path. */
  lemma TrailingSeparatorSameCase(fs: FileSystem, direc: string, prefixes: seq<string>, suffix: string)
    requires direc != "" && !EndsWith(direc, "/")
    ensures MissingSuffixes(fs, direc + "/", prefixes) == MissingSuffixes(fs, direc, prefixes)
    ensures MaskPath(direc + "/", suffix) == MaskPath(direc, suffix)
  {
    assert direc[|direc| - 1] != '/';
    assert CanonicalDir(direc + "/") == CanonicalDir(direc) by {
      assert !AllChar(direc, '/');
      TrailingSeparatorSameDir(fs, direc, ImageExt);
    }
    MissingSuffixesSameDir(fs, direc + "/", direc, prefixes);
    CaseIdIgnoresTrailingSeparator(direc);
  }

  /** Two spellings of the same directory miss the same inputs. */
  lemma {:induction false} MissingSuffixesSameDir(fs: FileSystem, d: string, d': string, prefixes: seq<string>)
    requires CanonicalDir(d) == CanonicalDir(d')
    ensures MissingSuffixes(fs, d, prefixes) == MissingSuffixes(fs, d', prefixes)
  {
    if prefixes != [] {
      var n := |prefixes| - 1;
      MissingSuffixesSameDir(fs, d, d', prefixes[..n]);
      assert Glob(fs, d, prefixes[n] + ImageExt) == Glob(fs, d', prefixes[n] + ImageExt);
    }
  }

  /** Every required suffix has a matching image in the case directory. */
  predicate HasAllInputs(fs: FileSystem, direc: string, prefixes: seq<string>) {
    forall s :: s in prefixes ==> Glob(fs, direc, s + ImageExt)
  }

  /** The required suffixes without a matching image, in the order they are
      checked (and logged). */
  function MissingSuffixes(fs: FileSystem, direc: string, prefixes: seq<string>): (r: seq<string>)
    ensures forall s :: s in r <==> s in prefixes && !Glob(fs, direc, s + ImageExt)
    ensures r == [] <==> HasAllInputs(fs, direc, prefixes)
  {
    if prefixes == [] then []
    else
      var init := prefixes[..|prefixes| - 1];
      var s := prefixes[|prefixes| - 1];
      assert forall t :: t in prefixes <==> t in init || t == s by {
        assert prefixes == init + [s];
      }
      var rest := MissingSuffixes(fs, direc, init);
      if Glob(fs, direc, s + ImageExt) then rest else rest + [s]
  }

  /** How a case ended. */
  datatype Outcome =
    | MissingInput(missing: seq<string>)  // skipped: these suffixes have no image
    | OutputExists(path: string)          // skipped: the mask exists and overwrite is off
    | Succeeded(path: string)             // recorded in `outnames`
    | Failed                              // recorded in `failed`

  /** What one pass of the loop body does to one case. */
  function ProcessCase(job: Job, fs: FileSystem, direc: string): (r: (Outcome, FileSystem))
    ensures r.0.MissingInput? <==> !HasAllInputs(fs, direc, job.prefixes)
    ensures var mask := MaskPath(direc, job.suffix);
      var after := job.predict(fs, direc, OutDirFor(job, direc), mask);
      match r.0
      case MissingInput(missing) =>
        && r.1 == fs
        && missing != []
        && forall s :: s in missing <==> s in job.prefixes && !Glob(fs, direc, s + ImageExt)
      case OutputExists(path) =>
        && r.1 == fs
        && HasAllInputs(fs, direc, job.prefixes)
        && !job.overwrite
        && path == mask && IsFile(fs, path)
      case Succeeded(path) =>
        && HasAllInputs(fs, direc, job.prefixes)
        && (job.overwrite || !IsFile(fs, mask))
        && r.1 == after.0 && path == after.1 && IsFile(after.0, path)
      case Failed =>
        && HasAllInputs(fs, direc, job.prefixes)
        && (job.overwrite || !IsFile(fs, mask))
        && r.1 == after.0 && !IsFile(after.0, after.1)
  {
    var missing := MissingSuffixes(fs, direc, job.prefixes);
    var mask := MaskPath(direc, job.suffix);
    if missing != [] then (MissingInput(missing), fs)
    else if !job.overwrite && IsFile(fs, mask) then (OutputExists(mask), fs)
    else
      var (fs', path) := job.predict(fs, direc, OutDirFor(job, direc), mask);
      if IsFile(fs', path) then (Succeeded(path), fs') else (Failed, fs')
  }

  /** What processing one case does, as a function of the filesystem and
      the case directory. */
  type Step = (FileSystem, string) -> (Outcome, FileSystem)

  function CaseStep(job: Job): Step {
    (fs: FileSystem, direc: string) => ProcessCase(job, fs, direc)
  }

  /** The outcomes of the first `n` cases under `step`, in order, and the
      filesystem after the last one: each case sees the filesystem the
      previous cases left behind. */
  function RunWith(step: Step, fs: FileSystem, direcs: seq<string>, n: nat): (r: (seq<Outcome>, FileSystem))
    requires n <= |direcs|
    ensures |r.0| == n
  {
    if n == 0 then ([], fs)
    else
      var (outcomes, mid) := RunWith(step, fs, direcs, n - 1);
      var (o, fs') := step(mid, direcs[n - 1]);
      (outcomes + [o], fs')
  }

  /** The reference semantics of the loop over the first `n` cases. */
  function RunFirst(job: Job, fs: FileSystem, direcs: seq<string>, n: nat): (r: (seq<Outcome>, FileSystem))
    requires n <= |direcs|
    ensures |r.0| == n
  {
    RunWith(CaseStep(job), fs, direcs, n)
  }

  /** The reference semantics of the whole loop. */
  function Run(job: Job, fs: FileSystem, direcs: seq<string>): (r: (seq<Outcome>, FileSystem))
    ensures |r.0| == |direcs|
  {
    RunFirst(job, fs, direcs, |direcs|)
  }

  /** The four ways a case can end, without their data. */
  datatype Kind = MissingKind | ExistsKind | SucceededKind | FailedKind

  function KindOf(o: Outcome): Kind {
    match o
    case MissingInput(_) => MissingKind
    case OutputExists(_) => ExistsKind
    case Succeeded(_) => SucceededKind
    case Failed => FailedKind
  }

  /** The case directories whose outcome is of kind `k`, in input order. */
  function CasesOf(direcs: seq<string>, outcomes: seq<Outcome>, k: Kind): seq<string>
    requires |direcs| == |outcomes|
  {
    if direcs == [] then []
    else
      var n := |direcs| - 1;
      CasesOf(direcs[..n], outcomes[..n], k) + if KindOf(outcomes[n]) == k then [direcs[n]] else []
  }

  /** The recorded mask paths (`outnames`), in input order. */
  function Produced(outcomes: seq<Outcome>): seq<string> {
    if outcomes == [] then []
    else
      var n := |outcomes| - 1;
      Produced(outcomes[..n]) + match outcomes[n] case Succeeded(p) => [p] case _ => []
  }

  lemma PrefixSnoc<T>(s: seq<T>, i: nat)
    requires i < |s|
    ensures s[..i + 1] == s[..i] + [s[i]]
  {
  }

  /** How the recorded lists grow when one more case is classified. */
  lemma RecordCase(direcs: seq<string>, outcomes: seq<Outcome>, direc: string, o: Outcome)
    requires |direcs| == |outcomes|
    ensures Produced(outcomes + [o]) == Produced(outcomes) + if o.Succeeded? then [o.path] else []
    ensures forall k :: (CasesOf(direcs + [direc], outcomes + [o], k)
      == CasesOf(direcs, outcomes, k) + if KindOf(o) == k then [direc] else [])
  {
    assert (outcomes + [o])[..|outcomes|] == outcomes;
    assert (direcs + [direc])[..|direcs|] == direcs;
  }

  /** The four kinds partition the cases: each case is counted under exactly
      one of them, and there is one recorded mask per successful case. */
  lemma {:induction false} PartitionCount(direcs: seq<string>, outcomes: seq<Outcome>)
    requires |direcs| == |outcomes|
    ensures |Produced(outcomes)| == |CasesOf(direcs, outcomes, SucceededKind)|
    ensures |CasesOf(direcs, outcomes, MissingKind)| + |CasesOf(direcs, outcomes, ExistsKind)|
          + |Produced(outcomes)| + |CasesOf(direcs, outcomes, FailedKind)| == |direcs|
  {
    if direcs != [] {
      var n := |direcs| - 1;
      PartitionCount(direcs[..n], outcomes[..n]);
    }
  }

  lemma {:induction false} SubsequenceExtend<T>(xs: seq<T>, ys: seq<T>, y: T)
    requires IsSubsequence(xs, ys)
    ensures IsSubsequence(xs, ys + [y])
    decreases |ys|, 1
  {
    var ys' := ys + [y];
    assert ys'[..|ys'| - 1] == ys;
    if xs != [] && xs[|xs| - 1] == y {
      SubsequenceDropLast(xs, ys);
    }
  }

  lemma {:induction false} SubsequenceDropLast<T>(xs: seq<T>, ys: seq<T>)
    requires xs != [] && IsSubsequence(xs, ys)
    ensures IsSubsequence(xs[..|xs| - 1], ys)
    decreases |ys|, 0
  {
    var n := |ys| - 1;
    if xs[|xs| - 1] == ys[n] {
      SubsequenceExtend(xs[..|xs| - 1], ys[..n], ys[n]);
      assert ys[..n] + [ys[n]] == ys;
    } else {
      SubsequenceDropLast(xs, ys[..n]);
      SubsequenceExtend(xs[..|xs| - 1], ys[..n], ys[n]);
      assert ys[..n] + [ys[n]] == ys;
    }
  }

  /** The cases of each kind keep their input order. */
  lemma {:induction false} CasesOfSubsequence(direcs: seq<string>, outcomes: seq<Outcome>, k: Kind)
    requires |direcs| == |outcomes|
    ensures IsSubsequence(CasesOf(direcs, outcomes, k), direcs)
  {
    if direcs != [] {
      var n := |direcs| - 1;
      var init := CasesOf(direcs[..n], outcomes[..n], k);
      CasesOfSubsequence(direcs[..n], outcomes[..n], k);
      assert direcs[..n] + [direcs[n]] == direcs;
      if KindOf(outcomes[n]) == k {
        assert CasesOf(direcs, outcomes, k) == init + [direcs[n]];
        assert (init + [direcs[n]])[..|init|] == init;
      } else {
        assert CasesOf(direcs, outcomes, k) == init;
        SubsequenceExtend(init, direcs[..n], direcs[n]);
      }
    }
  }

  /** The check that every required suffix has an image, one suffix at a
      time, collecting the ones that have none. */
  method CheckInputs(fs: FileSystem, direc: string, prefixes: seq<string>) returns (missing: seq<string>)
    ensures forall s :: s in missing <==> s in prefixes && !Glob(fs, direc, s + ImageExt)
    ensures missing == MissingSuffixes(fs, direc, prefixes)
  {
    missing := [];
    for j := 0 to |prefixes|
      invariant missing == MissingSuffixes(fs, direc, prefixes[..j])
    {
      assert prefixes[..j + 1][..j] == prefixes[..j];
      if !Glob(fs, direc, prefixes[j] + ImageExt) {
        missing := missing + [prefixes[j]];
      }
    }
    assert prefixes[..|prefixes|] == prefixes;
  }

  /** The loop body of `batch_mask` for one case. */
  method MaskCase(job: Job, fs: FileSystem, direc: string) returns (outcome: Outcome, after: FileSystem)
    ensures (outcome, after) == ProcessCase(job, fs, direc)
  {
    var missing := CheckInputs(fs, direc, job.prefixes);
    if missing != [] {
      return MissingInput(missing), fs;
    }
    var mask := MaskPath(direc, job.suffix);
    if !job.overwrite && IsFile(fs, mask) {
      return OutputExists(mask), fs;
    }
    var (fs', path) := job.predict(fs, direc, OutDirFor(job, direc), mask);
    after := fs';
    if IsFile(after, path) {
      outcome := Succeeded(path);
    } else {
      outcome := Failed;
    }
  }

  /** What `batch_mask` returns, plus the classification of every case and
      the number of `clear_session` calls, kept to state its contract. It is
      also the state of the loop. */
  datatype Report = Report(
    outnames: seq<string>,
    failed: seq<string>,
    skippedMissing: seq<string>,
    skippedExisting: seq<string>,
    outcomes: seq<Outcome>,
    fs: FileSystem,
    clearSessions: nat)

  /** The loop state after the first `i` cases of `direcs`, starting from
      filesystem `fs`: the classification so far agrees with `Run`, and each
      list records exactly the cases of its kind. */
  predicate Recorded(job: Job, fs: FileSystem, direcs: seq<string>, i: nat, st: Report)
    requires i <= |direcs|
  {
    && (st.outcomes, st.fs) == RunFirst(job, fs, direcs, i)
    && st.outnames == Produced(st.outcomes)
    && st.failed == CasesOf(direcs[..i], st.outcomes, FailedKind)
    && st.skippedMissing == CasesOf(direcs[..i], st.outcomes, MissingKind)
    && st.skippedExisting == CasesOf(direcs[..i], st.outcomes, ExistsKind)
  }

  /** One iteration of the loop: classify case `i` and record it. */
  method RecordNext(job: Job, fs: FileSystem, direcs: seq<string>, i: nat, st: Report) returns (st': Report)
    requires i < |direcs| && Recorded(job, fs, direcs, i, st)
    ensures Recorded(job, fs, direcs, i + 1, st')
    ensures st'.clearSessions == st.clearSessions
    ensures |st'.skippedMissing| + |st'.skippedExisting| + |st'.outnames| + |st'.failed|
         == |st.skippedMissing| + |st.skippedExisting| + |st.outnames| + |st.failed| + 1
  {
    var direc := direcs[i];
    PrefixSnoc(direcs, i);
    var outcome, after := MaskCase(job, st.fs, direc);
    st' := st.(outcomes := st.outcomes + [outcome], fs := after);
    match outcome {
      case MissingInput(_) =>
        st' := st'.(skippedMissing := st.skippedMissing + [direc]);
      case OutputExists(_) =>
        st' := st'.(skippedExisting := st.skippedExisting + [direc]);
      case Succeeded(path) =>
        st' := st'.(outnames := st.outnames + [path]);
      case Failed =>
        st' := st'.(failed := st.failed + [direc]);
    }
    RecordCase(direcs[..i], st.outcomes, direc, outcome);
    assert st'.outcomes[..i] == st.outcomes;
  }

  /** `batch_mask` over a list of case directories. */
  method BatchMask(
    params: Params, paramFile: string, names: Names, direcs: seq<string>,
    outDir: Option<string>, suffix: string, overwrite: bool, predict: Predictor, fs: FileSystem)
    returns (r: Result<Report, ConfigError>)
    ensures var cfg := Configure(params, paramFile, names, fs);
      && (r.Failure? <==> cfg.Failure?)
      && (r.Failure? ==> r.error == cfg.error)
    ensures r.Success? ==>
      var job := Job(Configure(params, paramFile, names, fs).value.dataPrefix, suffix, overwrite, outDir, predict);
      var rep := r.value;
      && (rep.outcomes, rep.fs) == Run(job, fs, direcs)
      && rep.outnames == Produced(rep.outcomes)
      && rep.failed == CasesOf(direcs, rep.outcomes, FailedKind)
      && rep.skippedMissing == CasesOf(direcs, rep.outcomes, MissingKind)
      && rep.skippedExisting == CasesOf(direcs, rep.outcomes, ExistsKind)
      && |rep.skippedMissing| + |rep.skippedExisting| + |rep.outnames| + |rep.failed| == |direcs|
      && |rep.outnames| + |rep.failed| <= |direcs|
      && IsSubsequence(rep.failed, direcs)
      && rep.clearSessions == 1
  {
    var cfg := Configure(params, paramFile, names, fs);
    if cfg.Failure? {
      return Failure(cfg.error);
    }
    var job := Job(cfg.value.dataPrefix, suffix, overwrite, outDir, predict);
    var st := Report([], [], [], [], [], fs, 0);
    for i := 0 to |direcs|
      invariant Recorded(job, fs, direcs, i, st)
      invariant |st.skippedMissing| + |st.skippedExisting| + |st.outnames| + |st.failed| == i
      invariant st.clearSessions == 0
    {
      st := RecordNext(job, fs, direcs, i, st);
    }
    // release the session once, whatever the outcomes
    st := st.(clearSessions := st.clearSessions + 1);
    assert direcs[..|direcs|] == direcs;
    CasesOfSubsequence(direcs, st.outcomes, FailedKind);
    return Success(st);
  }

  /** A case skipped for a missing input or an existing mask never reaches
      the predictor: its outcome is the same whatever the predictor does. */
  lemma SkipIgnoresPredictor(job: Job, fs: FileSystem, direc: string, other: Predictor)
    requires ProcessCase(job, fs, direc).0.MissingInput? || ProcessCase(job, fs, direc).0.OutputExists?
    ensures ProcessCase(job.(predict := other), fs, direc) == ProcessCase(job, fs, direc)
  {
  }

  /** With overwrite set the existence check is bypassed: no case is ever
      skipped because its mask exists. */
  lemma OverwriteNeverSkipsExisting(job: Job, fs: FileSystem, direcs: seq<string>)
    requires job.overwrite
    ensures forall i :: 0 <= i < |direcs| ==> !Run(job, fs, direcs).0[i].OutputExists?
  {
    forall fs', direc ensures !CaseStep(job)(fs', direc).0.OutputExists? {
      OverwriteRuns(job, fs', direc);
    }
    RunAvoids(CaseStep(job), fs, direcs, |direcs|, (o: Outcome) => o.OutputExists?);
  }

  /** With overwrite set a single case is never skipped as existing. */
  lemma OverwriteRuns(job: Job, fs: FileSystem, direc: string)
    requires job.overwrite
    ensures !ProcessCase(job, fs, direc).0.OutputExists?
  {
  }

  /** An outcome no single step can produce never shows up in a run. */
  lemma {:induction false} RunAvoids(step: Step, fs: FileSystem, direcs: seq<string>, n: nat, bad: Outcome -> bool)
    requires n <= |direcs|
    requires forall fs', direc :: !bad(step(fs', direc).0)
    ensures forall i :: 0 <= i < n ==> !bad(RunWith(step, fs, direcs, n).0[i])
  {
    if n > 0 {
      RunAvoids(step, fs, direcs, n - 1, bad);
      var prev := RunWith(step, fs, direcs, n - 1);
      var outcomes := RunWith(step, fs, direcs, n).0;
      assert outcomes == prev.0 + [step(prev.1, direcs[n - 1]).0];
      forall i | 0 <= i < n ensures !bad(outcomes[i]) {
        if i < n - 1 {
          assert outcomes[i] == prev.0[i];
        }
      }
    }
  }

  /** The filesystem only gains files and directories. */
  predicate Grows(fs: FileSystem, fs': FileSystem) {
    fs.files <= fs'.files && fs.dirs <= fs'.dirs
  }

  /** A predictor whose post-processing returns the mask path it was given
      and that removes nothing from the filesystem. */
  ghost predicate WellBehaved(predict: Predictor) {
    forall fs, direc, outDir, mask ::
      predict(fs, direc, outDir, mask).1 == mask && Grows(fs, predict(fs, direc, outDir, mask).0)
  }

  /** The outcome of case `i` is decided on the filesystem the first `i`
      cases left behind, and is not revised by later cases. */
  lemma {:induction false} RunOutcomeAt(step: Step, fs: FileSystem, direcs: seq<string>, m: nat, i: nat)
    requires i < m <= |direcs|
    ensures var r := step(RunWith(step, fs, direcs, i).1, direcs[i]);
      RunWith(step, fs, direcs, m).0[i] == r.0 && RunWith(step, fs, direcs, i + 1).1 == r.1
  {
    if i < m - 1 {
      RunOutcomeAt(step, fs, direcs, m - 1, i);
    }
  }

  /** A step that never removes anything makes every later state hold every
      earlier one. */
  lemma {:induction false} RunGrows(step: Step, fs: FileSystem, direcs: seq<string>, k: nat, m: nat)
    requires forall fs', direc :: Grows(fs', step(fs', direc).1)
    requires k <= m <= |direcs|
    ensures Grows(RunWith(step, fs, direcs, k).1, RunWith(step, fs, direcs, m).1)
  {
    if k < m {
      RunGrows(step, fs, direcs, k, m - 1);
      var mid := RunWith(step, fs, direcs, m - 1).1;
      assert Grows(mid, step(mid, direcs[m - 1]).1);
    }
  }

  /** With a well-behaved predictor, processing a case removes nothing. */
  lemma CaseStepGrows(job: Job)
    requires WellBehaved(job.predict)
    ensures forall fs, direc :: Grows(fs, CaseStep(job)(fs, direc).1)
  {
    forall fs, direc ensures Grows(fs, CaseStep(job)(fs, direc).1) {
      var mask := MaskPath(direc, job.suffix);
      var call := job.predict(fs, direc, OutDirFor(job, direc), mask);
      assert Grows(fs, call.0);
    }
  }

  /** Idempotent re-runs: with overwrite off and a well-behaved predictor, a
      case that ended with a mask (made now or found existing) is skipped as
      existing when the batch runs again on the resulting filesystem. */
  lemma RerunSkipsDone(job: Job, fs: FileSystem, direcs: seq<string>, i: nat)
    requires !job.overwrite && WellBehaved(job.predict)
    requires i < |direcs|
    requires Run(job, fs, direcs).0[i].Succeeded? || Run(job, fs, direcs).0[i].OutputExists?
    ensures Run(job, Run(job, fs, direcs).1, direcs).0[i] == OutputExists(MaskPath(direcs[i], job.suffix))
  {
    var n := |direcs|;
    var direc := direcs[i];
    var first := Run(job, fs, direcs).1;
    var before := RunFirst(job, fs, direcs, i).1;
    RunOutcomeAt(CaseStep(job), fs, direcs, n, i);
    var done := RunFirst(job, fs, direcs, i + 1).1;
    CaseEndsWithMask(job, before, direc);
    CaseStepGrows(job);
    RunGrows(CaseStep(job), fs, direcs, i + 1, n);
    RunGrows(CaseStep(job), first, direcs, 0, i);
    var again := RunFirst(job, first, direcs, i).1;
    assert Grows(before, done) && Grows(done, first) && Grows(first, again);
    InputsPersist(before, again, direc, job.prefixes);
    ExistingMaskSkips(job, again, direc);
    RunOutcomeAt(CaseStep(job), first, direcs, n, i);
  }

  /** A case that ended with a mask had all its inputs, left its mask
      behind and removed nothing, when the predictor is well behaved. */
  lemma CaseEndsWithMask(job: Job, fs: FileSystem, direc: string)
    requires WellBehaved(job.predict)
    requires ProcessCase(job, fs, direc).0.Succeeded? || ProcessCase(job, fs, direc).0.OutputExists?
    ensures HasAllInputs(fs, direc, job.prefixes)
    ensures MaskPath(direc, job.suffix) in ProcessCase(job, fs, direc).1.files
    ensures Grows(fs, ProcessCase(job, fs, direc).1)
  {
    var mask := MaskPath(direc, job.suffix);
    var call := job.predict(fs, direc, OutDirFor(job, direc), mask);
    assert call.1 == mask && Grows(fs, call.0);
  }

  /** Inputs present stay present when the filesystem only grows. */
  lemma InputsPersist(fs: FileSystem, fs': FileSystem, direc: string, prefixes: seq<string>)
    requires Grows(fs, fs') && HasAllInputs(fs, direc, prefixes)
    ensures HasAllInputs(fs', direc, prefixes)
  {
    forall s | s in prefixes ensures Glob(fs', direc, s + ImageExt) {
      GlobMonotone(fs, fs', direc, s + ImageExt);
    }
  }

  /** With overwrite off, a case whose inputs and mask exist is skipped. */
  lemma ExistingMaskSkips(job: Job, fs: FileSystem, direc: string)
    requires !job.overwrite && HasAllInputs(fs, direc, job.prefixes)
    requires MaskPath(direc, job.suffix) in fs.files
    ensures ProcessCase(job, fs, direc).0 == OutputExists(MaskPath(direc, job.suffix))
  {
  }

  /** A predictor that hands back the empty path has produced no mask: the
      case fails, whatever the filesystem afterwards holds. */
  lemma EmptyReturnedPathFails(job: Job, fs: FileSystem, direc: string)
    requires HasAllInputs(fs, direc, job.prefixes)
    requires job.overwrite || !IsFile(fs, MaskPath(direc, job.suffix))
    requires job.predict(fs, direc, OutDirFor(job, direc), MaskPath(direc, job.suffix)).1 == ""
    ensures ProcessCase(job, fs, direc).0 == Failed
  {
  }

  /** A re-run records neither a new mask nor a failure when the first run
      ended every case with a mask. */
  lemma SecondRunProducesNothing(job: Job, fs: FileSystem, direcs: seq<string>)
    requires !job.overwrite && WellBehaved(job.predict)
    requires forall i :: 0 <= i < |direcs| ==>
      Run(job, fs, direcs).0[i].Succeeded? || Run(job, fs, direcs).0[i].OutputExists?
    ensures Produced(Run(job, Run(job, fs, direcs).1, direcs).0) == []
    ensures CasesOf(direcs, Run(job, Run(job, fs, direcs).1, direcs).0, FailedKind) == []
    ensures Run(job, Run(job, fs, direcs).1, direcs).1 == Run(job, fs, direcs).1
  {
    var first := Run(job, fs, direcs).1;
    var again := Run(job, first, direcs).0;
    forall i | 0 <= i < |direcs| ensures again[i].OutputExists? {
      RerunSkipsDone(job, fs, direcs, i);
    }
    NothingRecordedWhenAllExist(direcs, again);
    forall fs', direc | CaseStep(job)(fs', direc).0.OutputExists?
      ensures CaseStep(job)(fs', direc).1 == fs'
    {
      ExistingLeavesFs(job, fs', direc);
    }
    RunUnchanged(CaseStep(job), first, direcs, |direcs|);
  }

  /** A case skipped as existing leaves the filesystem as it was. */
  lemma ExistingLeavesFs(job: Job, fs: FileSystem, direc: string)
    ensures ProcessCase(job, fs, direc).0.OutputExists? ==> ProcessCase(job, fs, direc).1 == fs
  {
  }

  /** A run in which every case is skipped as existing, by a step that
      leaves the filesystem alone when it skips, leaves the filesystem as
      it was. */
  lemma {:induction false} RunUnchanged(step: Step, fs: FileSystem, direcs: seq<string>, n: nat)
    requires n <= |direcs|
    requires forall fs', direc :: step(fs', direc).0.OutputExists? ==> step(fs', direc).1 == fs'
    requires forall i :: 0 <= i < n ==> RunWith(step, fs, direcs, n).0[i].OutputExists?
    ensures RunWith(step, fs, direcs, n).1 == fs
  {
    if n > 0 {
      var prev := RunWith(step, fs, direcs, n - 1);
      var outcomes := RunWith(step, fs, direcs, n).0;
      assert outcomes == prev.0 + [step(prev.1, direcs[n - 1]).0];
      forall i | 0 <= i < n - 1 ensures prev.0[i].OutputExists? {
        assert prev.0[i] == outcomes[i];
      }
      RunUnchanged(step, fs, direcs, n - 1);
      assert outcomes[n - 1].OutputExists?;
    }
  }

  lemma {:induction false} NothingRecordedWhenAllExist(direcs: seq<string>, outcomes: seq<Outcome>)
    requires |direcs| == |outcomes|
    requires forall i :: 0 <= i < |outcomes| ==> outcomes[i].OutputExists?
    ensures Produced(outcomes) == [] && CasesOf(direcs, outcomes, FailedKind) == []
  {
    if outcomes != [] {
      var n := |outcomes| - 1;
      NothingRecordedWhenAllExist(direcs[..n], outcomes[..n]);
    }
  }

  /** The mask paths of a list of case directories. */
  function MaskPaths(direcs: seq<string>, suffix: string): (r: seq<string>)
    ensures |r| == |direcs| && forall i :: 0 <= i < |r| ==> r[i] == MaskPath(direcs[i], suffix)
  {
    seq(|direcs|, i requires 0 <= i < |direcs| => MaskPath(direcs[i], suffix))
  }

  /** With a well-behaved predictor, `outnames` is the list of mask paths of
      the successful cases, in input order. */
  lemma ProducedAreMasks(job: Job, fs: FileSystem, direcs: seq<string>)
    requires WellBehaved(job.predict)
    ensures var outcomes := Run(job, fs, direcs).0;
      Produced(outcomes) == MaskPaths(CasesOf(direcs, outcomes, SucceededKind), job.suffix)
  {
    forall fs', direc | CaseStep(job)(fs', direc).0.Succeeded?
      ensures CaseStep(job)(fs', direc).0.path == MaskPath(direc, job.suffix)
    {
      SuccessIsMask(job, fs', direc);
    }
    ProducedAreMasksWith(CaseStep(job), fs, direcs, |direcs|, job.suffix);
    assert direcs[..|direcs|] == direcs;
  }

  /** For any step whose successes report the mask path, the recorded
      paths of the first `n` cases are the mask paths of the successes. */
  lemma {:induction false} ProducedAreMasksWith(step: Step, fs: FileSystem, direcs: seq<string>, n: nat, suffix: string)
    requires n <= |direcs|
    requires forall fs', direc :: step(fs', direc).0.Succeeded? ==> step(fs', direc).0.path == MaskPath(direc, suffix)
    ensures var outcomes := RunWith(step, fs, direcs, n).0;
      Produced(outcomes) == MaskPaths(CasesOf(direcs[..n], outcomes, SucceededKind), suffix)
  {
    if n > 0 {
      ProducedAreMasksWith(step, fs, direcs, n - 1, suffix);
      var prev := RunWith(step, fs, direcs, n - 1);
      var direc := direcs[n - 1];
      var o := step(prev.1, direc).0;
      assert RunWith(step, fs, direcs, n).0 == prev.0 + [o];
      PrefixSnoc(direcs, n - 1);
      RecordCase(direcs[..n - 1], prev.0, direc, o);
      MaskPathsSnoc(CasesOf(direcs[..n - 1], prev.0, SucceededKind), direc, suffix);
    }
  }

  /** With a well-behaved predictor a successful case records its mask path. */
  lemma SuccessIsMask(job: Job, fs: FileSystem, direc: string)
    requires WellBehaved(job.predict)
    ensures ProcessCase(job, fs, direc).0.Succeeded? ==>
      ProcessCase(job, fs, direc).0.path == MaskPath(direc, job.suffix)
  {
    var mask := MaskPath(direc, job.suffix);
    assert job.predict(fs, direc, OutDirFor(job, direc), mask).1 == mask;
  }

  lemma MaskPathsSnoc(direcs: seq<string>, direc: string, suffix: string)
    ensures MaskPaths(direcs + [direc], suffix) == MaskPaths(direcs, suffix) + [MaskPath(direc, suffix)]
  {
  }
}

=== FILE: checkpoints.dfy ===
/** Checkpoint selection of the evaluation script: which `.hdf5` file under
    `<model_dir>/checkpoints` to load, by recency (`last`), by the loss
    written into the file name (`best`), or by explicit name. File creation
    times and the parsing of loss strings are parameters. */
module Checkpoints {
  import opened Wrappers
  import opened Text
  import opened Paths
  import opened FileSystems

  datatype CheckpointError =
    | EmptyListing                    // `max()` of an empty listing raises ValueError
    | BestUndetermined                // the 'best' ValueError: a loss did not parse, or no checkpoint
    | NotUnderstood(selector: string) // ValueError: no checkpoint file of that name

  /** `k` is the first index holding the greatest key. */
  predicate IsFirstMax(keys: seq<int>, k: nat) {
    && k < |keys|
    && (forall j :: 0 <= j < |keys| ==> keys[j] <= keys[k])
    && (forall j :: 0 <= j < k ==> keys[j] < keys[k])
  }

  /** `k` is the first index holding the smallest key. */
  predicate IsFirstMin(keys: seq<real>, k: nat) {
    && k < |keys|
    && (forall j :: 0 <= j < |keys| ==> keys[k] <= keys[j])
    && (forall j :: 0 <= j < k ==> keys[k] < keys[j])
  }

  /** The index Python's `max(xs, key=f)` picks: scanning left to right, the
      candidate is replaced only by a strictly greater key. */
  function FirstMaxIndex(keys: seq<int>): (k: nat)
    requires |keys| > 0
    ensures IsFirstMax(keys, k)
  {
    if |keys| == 1 then 0
    else
      var n := |keys| - 1;
      var k := FirstMaxIndex(keys[..n]);
      assert forall j :: 0 <= j < n ==> keys[..n][j] == keys[j];
      if keys[n] > keys[k] then n else k
  }

  /** The index `np.argmin` picks: the first occurrence of the smallest value. */
  function FirstMinIndex(keys: seq<real>): (k: nat)
    requires |keys| > 0
    ensures IsFirstMin(keys, k)
  {
    if |keys| == 1 then 0
    else
      var n := |keys| - 1;
      var k := FirstMinIndex(keys[..n]);
      assert forall j :: 0 <= j < n ==> keys[..n][j] == keys[j];
      if keys[n] < keys[k] then n else k
  }

  /** The selection rules leave no choice: one index is the first maximum. */
  lemma FirstMaxUnique(keys: seq<int>, k1: nat, k2: nat)
    requires IsFirstMax(keys, k1) && IsFirstMax(keys, k2)
    ensures k1 == k2
  {
    assert keys[k1] == keys[k2];
  }

  /** The selection rules leave no choice: one index is the first minimum. */
  lemma FirstMinUnique(keys: seq<real>, k1: nat, k2: nat)
    requires IsFirstMin(keys, k1) && IsFirstMin(keys, k2)
    ensures k1 == k2
  {
    assert keys[k1] == keys[k2];
  }

  /** `path[0:-5]`: the path without its last five characters (the
      `.hdf5` extension); Python's slice is empty for shorter paths. */
  function Stem(path: string): (r: string)
    ensures |path| >= 5 ==> r + path[|path| - 5..] == path
    ensures |path| < 5 ==> r == ""
  {
    if |path| >= 5 then path[..|path| - 5] else ""
  }

  /** `path[0:-5].split('_')[-1]`: the text read as the loss of a
      checkpoint, everything after the last underscore of the stem. */
  function LossText(path: string): (r: string)
    ensures '_' !in r
    ensures EndsWith(Stem(path), r)
    ensures |r| == |Stem(path)| || Stem(path)[|Stem(path)| - |r| - 1] == '_'
  {
    AfterLast(Stem(path), '_')
  }

  /** The creation time of every listed checkpoint, in listing order. */
  function Ctimes(listing: seq<string>, ctime: string -> nat): (r: seq<int>)
    ensures |r| == |listing| && forall i :: 0 <= i < |r| ==> r[i] == ctime(listing[i])
  {
    seq(|listing|, i requires 0 <= i < |listing| => ctime(listing[i]))
  }

  /** Every listed checkpoint has a loss that parses. */
  predicate AllParse(listing: seq<string>, parse: string -> Option<real>) {
    forall i :: 0 <= i < |listing| ==> parse(LossText(listing[i])).Some?
  }

  /** The parsed losses, in listing order. */
  function Losses(listing: seq<string>, parse: string -> Option<real>): (r: seq<real>)
    requires AllParse(listing, parse)
    ensures |r| == |listing| && forall i :: 0 <= i < |r| ==> Some(r[i]) == parse(LossText(listing[i]))
  {
    seq(|listing|, i requires 0 <= i < |listing| => parse(LossText(listing[i])).value)
  }

  /** The file an explicit selector names: `<model_dir>/checkpoints/<name>.hdf5`. */
  function NamedCheckpoint(modelDir: string, name: string): (r: string)
    ensures StartsWith(r, modelDir) && EndsWith(r, "checkpoints/" + name + ".hdf5")
  {
    assert ("checkpoints/" + name + ".hdf5")[0] != '/';
    Join(modelDir, "checkpoints/" + name + ".hdf5")
  }

  /** A selector without separators names a file directly in the checkpoint
      directory `<model_dir>/checkpoints` that `last` and `best` list. */
  lemma NamedCheckpointInDirectory(modelDir: string, name: string)
    requires modelDir != "" && modelDir[|modelDir| - 1] != '/'
    requires '/' !in name
    ensures Dirname(NamedCheckpoint(modelDir, name)) == Join(modelDir, "checkpoints")
    ensures Basename(NamedCheckpoint(modelDir, name)) == name + ".hdf5"
  {
    var dir := modelDir + "/checkpoints";
    var file := name + ".hdf5";
    assert '/' !in file;
    assert "checkpoints"[0] != '/' && ("checkpoints/" + file)[0] != '/';
    assert Join(modelDir, "checkpoints") == dir;
    assert "checkpoints/" + name + ".hdf5" == "checkpoints/" + file;
    assert NamedCheckpoint(modelDir, name) == dir + "/" + file;
    JoinSplit(dir, file);
  }

  /** The checkpoint the evaluation loads. `listing` is the result of
      globbing `*.hdf5` in the checkpoint directory, in listing order.
      `last` and `best` are modes, never file names; any other selector
      must name an existing checkpoint file. */
  function ResolveCheckpoint(
    modelDir: string, listing: seq<string>, ctime: string -> nat,
    parse: string -> Option<real>, selector: string, fs: FileSystem): (r: Result<string, CheckpointError>)
    ensures selector == "last" ==>
      && (r.Failure? <==> listing == [])
      && (r.Failure? ==> r.error == EmptyListing)
      && (r.Success? ==> exists k: nat :: IsFirstMax(Ctimes(listing, ctime), k) && r.value == listing[k])
    ensures selector == "best" ==>
      && (r.Failure? <==> listing == [] || !AllParse(listing, parse))
      && (r.Failure? ==> r.error == BestUndetermined)
      && (r.Success? ==> exists k: nat :: IsFirstMin(Losses(listing, parse), k) && r.value == listing[k])
    ensures selector != "last" && selector != "best" ==>
      && (r.Success? <==> IsFile(fs, NamedCheckpoint(modelDir, selector)))
      && (r.Success? ==> r.value == NamedCheckpoint(modelDir, selector))
      && (r.Failure? ==> r.error == NotUnderstood(selector))
  {
    if selector == "last" then
      if listing == [] then Failure(EmptyListing)
      else Success(listing[FirstMaxIndex(Ctimes(listing, ctime))])
    else if selector == "best" then
      if !AllParse(listing, parse) || listing == [] then Failure(BestUndetermined)
      else Success(listing[FirstMinIndex(Losses(listing, parse))])
    else
      var path := NamedCheckpoint(modelDir, selector);
      if IsFile(fs, path) then Success(path) else Failure(NotUnderstood(selector))
  }

  /** `last` and `best` take precedence over files of the same name: their
      result does not depend on which files exist. */
  lemma ModesIgnoreNamedFiles(
    modelDir: string, listing: seq<string>, ctime: string -> nat,
    parse: string -> Option<real>, selector: string, fs: FileSystem, fs': FileSystem)
    requires selector == "last" || selector == "best"
    ensures ResolveCheckpoint(modelDir, listing, ctime, parse, selector, fs)
         == ResolveCheckpoint(modelDir, listing, ctime, parse, selector, fs')
  {
  }

  /** Of two checkpoints, `last` picks the one created later, and the first
      listed one on a tie. */
  lemma LastOfTwo(modelDir: string, a: string, b: string, ctime: string -> nat,
                  parse: string -> Option<real>, fs: FileSystem)
    ensures var r := ResolveCheckpoint(modelDir, [a, b], ctime, parse, "last", fs);
      r == Success(if ctime(a) < ctime(b) then b else a)
  {
    var keys := Ctimes([a, b], ctime);
    var r := ResolveCheckpoint(modelDir, [a, b], ctime, parse, "last", fs);
    assert keys[0] == ctime(a) && keys[1] == ctime(b);
    var k: nat :| IsFirstMax(keys, k) && r.value == [a, b][k];
    if ctime(a) < ctime(b) {
      assert k == 1;
    } else {
      assert k == 0;
    }
  }
}

=== FILE: evaluation.dfy ===
/** The evaluation script around the checkpoint choice: preparing the
    evaluation log, checking user-supplied data directories, choosing the
    evaluation data by a first-match fallback chain, and pairing metric
    names with evaluation results for the report. The model, the dataset
    loaders and the study-directory manifest reader are opaque; the
    manifest is given as a map from split name to directory list. */
module Evaluation {
  import opened Wrappers
  import opened Text
  import opened Paths
  import opened FileSystems
  import opened Checkpoints

  datatype EvalError =
    | DirectoriesMissing              // AssertionError: not all given directories exist
    | MissingEvalSplit                // KeyError: the manifest has no "eval" entry
    | NoEvalDirectories               // FileNotFoundError: the "eval" entry is empty
    | Checkpoint(cause: CheckpointError)

  /** The data an evaluation runs on: a list of study directories to build
      a dataset from, or a pre-generated dataset saved on disk. */
  datatype EvalData = Directories(dirs: seq<string>) | Cached(path: string)

  /** `<model_dir>/evaluation`, the directory holding the evaluation log. */
  function EvalDir(modelDir: string): string {
    Join(modelDir, "evaluation")
  }

  /** `<model_dir>/evaluation/eval.log`. */
  function EvalLog(modelDir: string): string {
    Join(EvalDir(modelDir), "eval.log")
  }

  /** `<model_dir>/dataset/eval`, where a pre-generated dataset is saved.
      Like the evaluation directory it ends in a name, so it is already the
      spelling under which the filesystem records it. */
  function EvalCache(modelDir: string): (r: string)
    ensures StartsWith(r, modelDir) && EndsWith(r, "dataset/eval")
  {
    assert '/' !in "dataset" by {
      assert forall i :: 0 <= i < 7 ==> "dataset"[i] != '/';
    }
    assert "eval"[0] != '/';
    JoinTwice(modelDir, "dataset", "eval");
    Join(Join(modelDir, "dataset"), "eval")
  }

  /** The saved-dataset location does not end in a separator, so it is its
      own canonical spelling and `os.path.isdir` on it is membership in the
      directories. */
  lemma EvalCacheCanonical(fs: FileSystem, modelDir: string)
    ensures CanonicalDir(EvalCache(modelDir)) == EvalCache(modelDir)
    ensures IsDir(fs, EvalCache(modelDir)) <==> EvalCache(modelDir) in fs.dirs
  {
    var r := EvalCache(modelDir);
    assert r[|r| - 1] == 'l' by {
      assert r[|r| - 12..] == "dataset/eval";
    }
  }

  /** The filesystem once the log location is ready: the evaluation
      directory exists, and an old log survives only when overwriting is
      off. Nothing else changes. */
  function PrepareEvalLog(fs: FileSystem, modelDir: string, overwrite: bool): (r: FileSystem)
    ensures EvalDir(modelDir) in r.dirs
    ensures r.dirs == fs.dirs + {EvalDir(modelDir)}
    ensures EvalLog(modelDir) in r.files <==> EvalLog(modelDir) in fs.files && !overwrite
    ensures r.files - {EvalLog(modelDir)} == fs.files - {EvalLog(modelDir)}
  {
    var dir := EvalDir(modelDir);
    var made := if dir in fs.dirs then fs else fs.(dirs := fs.dirs + {dir});
    var log := EvalLog(modelDir);
    if log in made.files && overwrite then made.(files := made.files - {log}) else made
  }

  /** Preparing the log twice is preparing it once. */
  lemma PrepareEvalLogIdempotent(fs: FileSystem, modelDir: string, overwrite: bool)
    ensures PrepareEvalLog(PrepareEvalLog(fs, modelDir, overwrite), modelDir, overwrite)
         == PrepareEvalLog(fs, modelDir, overwrite)
  {
    var once := PrepareEvalLog(fs, modelDir, overwrite);
    var twice := PrepareEvalLog(once, modelDir, overwrite);
    assert twice.dirs == once.dirs;
    var log := EvalLog(modelDir);
    assert twice.files - {log} == once.files - {log};
    assert log in twice.files <==> log in once.files;
    assert twice.files == once.files by {
      forall p | p in twice.files ensures p in once.files {
        if p != log { assert p in twice.files - {log}; }
      }
      forall p | p in once.files ensures p in twice.files {
        if p != log { assert p in once.files - {log}; }
      }
    }
  }

  /** The `--directories` option: an absent or empty list leaves the data
      directories unset; otherwise every directory must exist, and the
      list is kept as given. */
  function CheckDirectories(directories: Option<seq<string>>, fs: FileSystem): (r: Result<Option<seq<string>>, EvalError>)
    ensures directories.None? || directories == Some([]) ==> r == Success(None)
    ensures directories.Some? && directories.value != [] ==>
      && (r.Success? <==> forall i :: 0 <= i < |directories.value| ==> IsDir(fs, directories.value[i]))
      && (r.Success? ==> r.value == directories)
      && (r.Failure? ==> r.error == DirectoriesMissing)
  {
    match directories
    case None => Success(None)
    case Some(ds) =>
      if ds == [] then Success(None)
      else if forall d | d in ds :: IsDir(fs, d) then Success(Some(ds))
      else Failure(DirectoriesMissing)
  }

  /** `os.path.isdir("")` is false, so a directory list holding the empty
      path is rejected whatever the filesystem holds. */
  lemma EmptyDirectoryRejected(directories: seq<string>, fs: FileSystem)
    requires "" in directories
    ensures CheckDirectories(Some(directories), fs) == Failure(DirectoriesMissing)
  {
  }

  /** The evaluation data, by the first source that applies: directories
      given on the command line, then a saved dataset under the model
      directory, then the "eval" split of the manifest, which must exist
      and be non-empty. */
  function ResolveEvalData(
    dataDirectories: Option<seq<string>>, modelDir: string, fs: FileSystem,
    manifest: map<string, seq<string>>): (r: Result<EvalData, EvalError>)
    ensures r.Success? && r.value.Directories? ==>
      || (dataDirectories.Some? && r.value.dirs == dataDirectories.value)
      || (&& dataDirectories.None? && EvalCache(modelDir) !in fs.dirs && "eval" in manifest
          && r.value.dirs == manifest["eval"] && r.value.dirs != [])
    ensures r.Success? && r.value.Cached? ==>
      dataDirectories.None? && r.value.path == EvalCache(modelDir) && EvalCache(modelDir) in fs.dirs
    ensures r.Failure? ==>
      dataDirectories.None? && EvalCache(modelDir) !in fs.dirs
      && (r.error == MissingEvalSplit <==> "eval" !in manifest)
      && (r.error == NoEvalDirectories <==> "eval" in manifest && manifest["eval"] == [])
  {
    match dataDirectories
    case Some(ds) => Success(Directories(ds))
    case None =>
      var cache := EvalCache(modelDir);
      if cache in fs.dirs then Success(Cached(cache))
      else if "eval" !in manifest then Failure(MissingEvalSplit)
      else if manifest["eval"] == [] then Failure(NoEvalDirectories)
      else Success(Directories(manifest["eval"]))
  }

  /** Directories given explicitly win: neither the saved dataset nor the
      manifest is consulted. */
  lemma ExplicitDirectoriesWin(
    ds: seq<string>, modelDir: string, fs: FileSystem, fs': FileSystem,
    manifest: map<string, seq<string>>, manifest': map<string, seq<string>>)
    ensures ResolveEvalData(Some(ds), modelDir, fs, manifest) == Success(Directories(ds))
    ensures ResolveEvalData(Some(ds), modelDir, fs, manifest)
         == ResolveEvalData(Some(ds), modelDir, fs', manifest')
  {
  }

  /** Without explicit directories, a saved dataset wins over the
      manifest, whatever the manifest says. */
  lemma SavedDatasetWins(
    modelDir: string, fs: FileSystem,
    manifest: map<string, seq<string>>, manifest': map<string, seq<string>>)
    requires EvalCache(modelDir) in fs.dirs
    ensures ResolveEvalData(None, modelDir, fs, manifest) == Success(Cached(EvalCache(modelDir)))
    ensures ResolveEvalData(None, modelDir, fs, manifest) == ResolveEvalData(None, modelDir, fs, manifest')
  {
  }

  /** Only when nothing else applies is the manifest read, and then its
      "eval" split is the data exactly when that split is non-empty. */
  lemma ManifestIsLastResort(modelDir: string, fs: FileSystem, manifest: map<string, seq<string>>)
    requires EvalCache(modelDir) !in fs.dirs
    ensures var r := ResolveEvalData(None, modelDir, fs, manifest);
      r.Success? <==> "eval" in manifest && manifest["eval"] != []
    ensures var r := ResolveEvalData(None, modelDir, fs, manifest);
      r.Success? ==> r.value == Directories(manifest["eval"])
  {
  }

  /** The names the report lines mention, in order. */
  function Names(lines: seq<(string, real)>): (r: seq<string>)
    ensures |r| == |lines| && forall i :: 0 <= i < |r| ==> r[i] == lines[i].0
  {
    seq(|lines|, i requires 0 <= i < |lines| => lines[i].0)
  }

  /** The values the report lines mention, in order. */
  function Values(lines: seq<(string, real)>): (r: seq<real>)
    ensures |r| == |lines| && forall i :: 0 <= i < |r| ==> r[i] == lines[i].1
  {
    seq(|lines|, i requires 0 <= i < |lines| => lines[i].1)
  }

  /** The metric report: the loss followed by the metrics, each paired with
      the result at the same index. Lines are logged one by one, so when
      there are fewer results than names the lines logged so far stand and
      the next lookup raises IndexError. Extra results are never reported. */
  method ReportMetrics(loss: string, metrics: seq<string>, results: seq<real>)
    returns (lines: seq<(string, real)>, indexError: bool)
    ensures indexError <==> |results| < 1 + |metrics|
    ensures |lines| == if indexError then |results| else 1 + |metrics|
    ensures forall i :: 0 <= i < |lines| ==> lines[i] == (([loss] + metrics)[i], results[i])
    ensures |results| > 0 ==> lines[0] == (loss, results[0])
  {
    var names := [loss] + metrics;
    lines := [];
    var i := 0;
    while i < |names| && i < |results|
      invariant 0 <= i <= |names| && i <= |results|
      invariant |lines| == i
      invariant forall j :: 0 <= j < i ==> lines[j] == (names[j], results[j])
    {
      lines := lines + [(names[i], results[i])];
      i := i + 1;
    }
    indexError := i < |names|;
  }

  /** Unzipping a report gives back a prefix of the names and the matching
      prefix of the results. */
  lemma ReportUnzips(loss: string, metrics: seq<string>, results: seq<real>, lines: seq<(string, real)>)
    requires |lines| <= |results| && |lines| <= 1 + |metrics|
    requires forall i :: 0 <= i < |lines| ==> lines[i] == (([loss] + metrics)[i], results[i])
    ensures Names(lines) == ([loss] + metrics)[..|lines|]
    ensures Values(lines) == results[..|lines|]
  {
  }

  /** What the evaluation script has settled before the model runs. */
  datatype Setup = Setup(checkpoint: string, data: EvalData)

  /** The script's steps in order: prepare the log, resolve the
      checkpoint, check the given directories, then choose the data. The
      log is prepared whatever fails afterwards; a checkpoint error is
      reported before a directory error, and that before a data error. */
  function PrepareEvaluation(
    modelDir: string, overwrite: bool, listing: seq<string>, ctime: string -> nat,
    parse: string -> Option<real>, selector: string, directories: Option<seq<string>>,
    manifest: map<string, seq<string>>, fs: FileSystem): (r: (FileSystem, Result<Setup, EvalError>))
    ensures r.0 == PrepareEvalLog(fs, modelDir, overwrite)
    ensures ResolveCheckpoint(modelDir, listing, ctime, parse, selector, r.0).Failure? ==>
      r.1 == Failure(Checkpoint(ResolveCheckpoint(modelDir, listing, ctime, parse, selector, r.0).error))
    ensures var ckpt := ResolveCheckpoint(modelDir, listing, ctime, parse, selector, r.0);
      var given := CheckDirectories(directories, r.0);
      ckpt.Success? && given.Failure? ==> r.1 == Failure(given.error)
    ensures var ckpt := ResolveCheckpoint(modelDir, listing, ctime, parse, selector, r.0);
      var given := CheckDirectories(directories, r.0);
      ckpt.Success? && given.Success? ==>
        var data := ResolveEvalData(given.value, modelDir, r.0, manifest);
        && (data.Failure? ==> r.1 == Failure(data.error))
        && (data.Success? ==> r.1 == Success(Setup(ckpt.value, data.value)))
    ensures r.1.Success? <==>
      && ResolveCheckpoint(modelDir, listing, ctime, parse, selector, r.0).Success?
      && CheckDirectories(directories, r.0).Success?
      && ResolveEvalData(CheckDirectories(directories, r.0).value, modelDir, r.0, manifest).Success?
  {
    var fs1 := PrepareEvalLog(fs, modelDir, overwrite);
    var outcome :=
      match ResolveCheckpoint(modelDir, listing, ctime, parse, selector, fs1)
      case Failure(e) => Failure(Checkpoint(e))
      case Success(ckpt) =>
        var given :- CheckDirectories(directories, fs1);
        var data :- ResolveEvalData(given, modelDir, fs1, manifest);
        Success(Setup(ckpt, data));
    (fs1, outcome)
  }
}

=== FILE: filesystem.dfy ===
/** An abstract filesystem: the set of paths that are regular files and the
    set that are directories, each recorded under the spelling `glob`
    returns, without trailing separators. The filesystem is assumed well
    formed: for every entry containing a separator, the part before its
    last separator is itself a directory, unless it is empty: the entry
    then sits in the root, which is not recorded either. The empty path
    names neither a file nor a directory. `glob` patterns are modelled by
    predicates saying whether they match anything. */
module FileSystems {
  import opened Wrappers
  import opened Text
  import opened Paths

  /** The extension of every image and every mask. */
  const ImageExt := ".nii.gz"

  datatype FileSystem = FileSystem(files: set<string>, dirs: set<string>) {

    /** Everything `glob` can list: files and directories alike. */
    function Entries(): set<string> {
      files + dirs
    }
  }

  /** The spelling under which the directory written `d` is listed and
      found. `glob` splits its pattern with `os.path.split`, which drops the
      trailing separators of the directory part unless nothing else is
      left; `os.path.isdir` likewise finds `c/` when `c` is a directory. */
  function CanonicalDir(d: string): (r: string)
    ensures StartsWith(d, r)
    ensures !AllChar(d, '/') ==> r != "" && r[|r| - 1] != '/' && AllChar(d[|r|..], '/')
    ensures AllChar(d, '/') ==> r == d
    ensures d != "" && d[|d| - 1] != '/' ==> r == d
  {
    if AllChar(d, '/') then d
    else
      RStrip(d, '/')
  }

  /** `os.path.isdir(p)`: the empty path names no directory, whatever the
      filesystem holds. */
  predicate IsDir(fs: FileSystem, p: string) {
    p != "" && CanonicalDir(p) in fs.dirs
  }

  /** `os.path.isfile(p)`: the empty path names no file, whatever the
      filesystem holds. */
  predicate IsFile(fs: FileSystem, p: string) {
    p != "" && p in fs.files
  }

  /** A directory entry that the wildcard `*` matches as a whole component:
      non-empty, without a separator, and not hidden (glob skips names that
      start with a dot unless the pattern does). */
  predicate IsEntryName(n: string) {
    |n| > 0 && n[0] != '.' && '/' !in n
  }

  /** `p` names an entry directly inside the directory written `d`, spelled
      as `glob` returns it: the canonical spelling of `d`, a separator, and
      the entry name. */
  predicate InDir(d: string, p: string) {
    var c := CanonicalDir(d);
    |c| + 1 < |p| && p[..|c| + 1] == c + "/" && IsEntryName(p[|c| + 1..])
  }

  /** `p` is one of the paths `glob(d + "/" + "*" + tail)` returns: the `*`
      matches any run of characters without a separator (possibly none), so
      the entry name ends with `tail`. */
  predicate Matches(d: string, p: string, tail: string) {
    InDir(d, p) && EndsWith(p[|CanonicalDir(d)| + 1..], tail)
  }

  /** `glob(d + "/" + "*" + tail)` is non-empty. */
  predicate Glob(fs: FileSystem, d: string, tail: string) {
    exists p :: p in fs.Entries() && Matches(d, p, tail)
  }

  /** `p` is one of the paths `glob(d + "/" + "*" + "/" + "*" + tail)`
      returns: the first `*` matches directories only. */
  predicate MatchesNested(fs: FileSystem, d: string, p: string, tail: string) {
    match LastIndexOf(p, '/')
    case None => false
    case Some(k) => InDir(d, p[..k]) && p[..k] in fs.dirs && Matches(p[..k], p, tail)
  }

  /** `glob(d + "/" + "*" + tail)` finds something exactly when the
      directory holds a visible entry whose name ends with `tail`. */
  lemma GlobByName(fs: FileSystem, d: string, tail: string)
    ensures Glob(fs, d, tail) <==>
      exists n :: IsEntryName(n) && EndsWith(n, tail) && CanonicalDir(d) + "/" + n in fs.Entries()
  {
    var c := CanonicalDir(d);
    if Glob(fs, d, tail) {
      var p :| p in fs.Entries() && Matches(d, p, tail);
      var n := p[|c| + 1..];
      assert p == c + "/" + n;
    }
    if exists n :: IsEntryName(n) && EndsWith(n, tail) && c + "/" + n in fs.Entries() {
      var n :| IsEntryName(n) && EndsWith(n, tail) && c + "/" + n in fs.Entries();
      var p := c + "/" + n;
      assert p[..|c| + 1] == c + "/" && p[|c| + 1..] == n;
      assert Matches(d, p, tail);
    }
  }

  /** `glob(d + "/" + "*" + "/" + "*" + tail)` lists `p` exactly when `p` is a
      visible entry ending in `tail` of a visible sub-directory of `d`. */
  lemma NestedByName(fs: FileSystem, d: string, p: string, tail: string)
    ensures MatchesNested(fs, d, p, tail) <==>
      exists a, n :: IsEntryName(a) && IsEntryName(n) && EndsWith(n, tail)
        && CanonicalDir(d) + "/" + a in fs.dirs && p == CanonicalDir(d) + "/" + a + "/" + n
  {
    var c := CanonicalDir(d);
    if MatchesNested(fs, d, p, tail) {
      var a, n := NestedParts(fs, d, p, tail);
    }
    if exists a, n :: IsEntryName(a) && IsEntryName(n) && EndsWith(n, tail)
        && c + "/" + a in fs.dirs && p == c + "/" + a + "/" + n {
      var a, n :| IsEntryName(a) && IsEntryName(n) && EndsWith(n, tail)
        && c + "/" + a in fs.dirs && p == c + "/" + a + "/" + n;
      NestedFromParts(fs, d, a, n, tail);
    }
  }

  /** The sub-directory name and entry name of a nested match. */
  lemma NestedParts(fs: FileSystem, d: string, p: string, tail: string) returns (a: string, n: string)
    requires MatchesNested(fs, d, p, tail)
    ensures IsEntryName(a) && IsEntryName(n) && EndsWith(n, tail)
    ensures CanonicalDir(d) + "/" + a in fs.dirs && p == CanonicalDir(d) + "/" + a + "/" + n
  {
    var k := LastIndexOf(p, '/').value;
    var parent := p[..k];
    a := InDirParts(d, parent);
    InDirShape(d, parent);
    n := MatchesParts(parent, p, tail);
  }

  /** An entry directly in `d` is the canonical spelling of `d`, a
      separator and its entry name. */
  lemma InDirParts(d: string, q: string) returns (a: string)
    requires InDir(d, q)
    ensures IsEntryName(a) && q == CanonicalDir(d) + "/" + a
  {
    var c := CanonicalDir(d);
    a := q[|c| + 1..];
    assert q == q[..|c| + 1] + a;
  }

  /** A match in a directory already spelled canonically is that directory,
      a separator and an entry name ending in the tail. */
  lemma MatchesParts(e: string, p: string, tail: string) returns (n: string)
    requires e != "" && e[|e| - 1] != '/'
    requires Matches(e, p, tail)
    ensures IsEntryName(n) && EndsWith(n, tail) && p == e + "/" + n
  {
    assert CanonicalDir(e) == e;
    n := p[|e| + 1..];
    assert p == p[..|e| + 1] + n;
  }

  /** A visible entry ending in `tail` of a visible sub-directory is a
      nested match. */
  lemma NestedFromParts(fs: FileSystem, d: string, a: string, n: string, tail: string)
    requires IsEntryName(a) && IsEntryName(n) && EndsWith(n, tail)
    requires CanonicalDir(d) + "/" + a in fs.dirs
    ensures MatchesNested(fs, d, CanonicalDir(d) + "/" + a + "/" + n, tail)
  {
    var c := CanonicalDir(d);
    var parent := c + "/" + a;
    var p := parent + "/" + n;
    LastSeparatorOfJoin(parent, n);
    assert p[..|parent|] == parent;
    assert InDir(d, parent) by {
      assert parent[..|c| + 1] == c + "/" && parent[|c| + 1..] == a;
    }
    assert parent[|parent| - 1] == a[|a| - 1];
    assert CanonicalDir(parent) == parent;
    assert p[..|parent| + 1] == parent + "/" && p[|parent| + 1..] == n;
  }

  /** A trailing separator does not change which directory is meant:
      `glob` lists the same entries and `os.path.isdir` gives the same
      answer, as long as `d` is not made of separators only. */
  lemma TrailingSeparatorSameDir(fs: FileSystem, d: string, tail: string)
    requires !AllChar(d, '/')
    ensures CanonicalDir(d + "/") == CanonicalDir(d)
    ensures Glob(fs, d + "/", tail) <==> Glob(fs, d, tail)
    ensures IsDir(fs, d + "/") <==> IsDir(fs, d)
  {
    CanonicalDirTrailing(d);
    SameSpellingSameDir(fs, d + "/", d, tail);
  }

  /** One more trailing separator leaves the canonical spelling alone. */
  lemma CanonicalDirTrailing(d: string)
    requires !AllChar(d, '/')
    ensures d != "" && CanonicalDir(d + "/") == CanonicalDir(d)
  {
    var d' := d + "/";
    assert !AllChar(d', '/') by {
      var i :| 0 <= i < |d| && d[i] != '/';
      assert d'[i] == d[i];
    }
    assert d'[..|d'| - 1] == d;
  }

  /** Two non-empty paths with the same canonical spelling name the same
      directory for `glob` and for `os.path.isdir`. */
  lemma SameSpellingSameDir(fs: FileSystem, d: string, d': string, tail: string)
    requires d != "" && d' != "" && CanonicalDir(d) == CanonicalDir(d')
    ensures Glob(fs, d, tail) <==> Glob(fs, d', tail)
    ensures IsDir(fs, d) <==> IsDir(fs, d')
  {
    assert forall p :: Matches(d, p, tail) <==> Matches(d', p, tail);
  }

  /** `-i data/` on a directory `data` holding an image: the trailing
      separator still finds the directory and its image. */
  lemma TrailingSeparatorExample()
    ensures var fs := FileSystem({"data/x.nii.gz"}, {"data"});
      IsDir(fs, "data/") && Glob(fs, "data/", ImageExt)
  {
    var fs := FileSystem({"data/x.nii.gz"}, {"data"});
    assert !AllChar("data", '/') by {
      assert "data"[0] != '/';
    }
    TrailingSeparatorSameDir(fs, "data", ImageExt);
    assert "data" + "/" == "data/";
    assert "data"[3] != '/';
    assert CanonicalDir("data/") == "data";
    var p := "data/x.nii.gz";
    assert p[..5] == "data/" && p[5..] == "x.nii.gz";
    assert IsEntryName("x.nii.gz") by {
      assert "x.nii.gz"[0] == 'x';
      assert forall i :: 0 <= i < 8 ==> "x.nii.gz"[i] != '/';
    }
    assert EndsWith("x.nii.gz", ImageExt) by {
      assert "x.nii.gz"[1..] == ImageExt;
    }
    assert Matches("data/", p, ImageExt);
  }

  /** More entries never make a glob match less. */
  lemma GlobMonotone(fs: FileSystem, fs': FileSystem, d: string, tail: string)
    requires fs.Entries() <= fs'.Entries()
    requires Glob(fs, d, tail)
    ensures Glob(fs', d, tail)
  {
    var p :| p in fs.Entries() && Matches(d, p, tail);
    assert p in fs'.Entries();
  }

  /** A path matched by the pattern `d`, separator, `*`, `tail` lies in `d`: its last separator
      sits right after `d`, and `os.path.dirname` gives back `d`. */
  lemma MatchParent(d: string, p: string, tail: string)
    requires d != "" && d[|d| - 1] != '/'
    requires Matches(d, p, tail)
    ensures LastIndexOf(p, '/') == Some(|d|)
    ensures Dirname(p) == d
  {
    assert CanonicalDir(d) == d;
    var b := p[|d| + 1..];
    assert p == d + "/" + b;
    JoinSplit(d, b);
  }

  /** A case directory entry `d + "/" + name` is non-empty and does not end
      in a separator. */
  lemma InDirShape(d: string, c: string)
    requires InDir(d, c)
    ensures c != "" && c[|c| - 1] != '/'
  {
    var n := c[|CanonicalDir(d)| + 1..];
    assert c[|c| - 1] == n[|n| - 1];
  }
}

=== FILE: mask_cli.dfy ===
/** The argument handling of the mask-generation script before it calls the
    batch: logging-level validation, input discovery and output-suffix
    normalisation. */
module MaskCli {
  import opened Wrappers
  import opened Text
  import opened Paths
  import opened FileSystems

  datatype CliError =
    | LoggingNotInteger                 // `int(args.logging)` raised
    | LoggingOutOfRange(level: int)     // the level assertion failed
    | NoInputArgument                   // the input directory argument is empty
    | InputNotADirectory(path: string)  // the input directory assertion failed
    | NoImageData                       // FileNotFoundError: no image found
    | OutputNotADirectory(path: string) // the output directory assertion failed

  /** The level handed to the `brain_mask` logger. `parsed` is what
      `int(args.logging)` gave, `None` when it raised. Accepted levels are
      1 to 5, and level n becomes the logging constant 10 * n. */
  function LoggerLevel(parsed: Option<int>): (r: Result<int, CliError>)
    ensures r.Success? <==> parsed.Some? && 1 <= parsed.value <= 5
    ensures r.Success? ==> r.value % 10 == 0 && 10 <= r.value <= 50 && r.value / 10 == parsed.value
    ensures parsed.None? ==> r == Failure(LoggingNotInteger)
    ensures parsed.Some? && !(1 <= parsed.value <= 5) ==> r == Failure(LoggingOutOfRange(parsed.value))
  {
    match parsed
    case None => Failure(LoggingNotInteger)
    case Some(n) =>
      if n in [1, 2, 3, 4, 5] then Success(n * 10) else Failure(LoggingOutOfRange(n))
  }

  /** The parent directories of the images one level below `d`, that is
      `{os.path.dirname(x) for x in glob(d + "/" + "*" + "/" + "*.nii.gz")}`.
      They are exactly the sub-directories of `d` that directly hold an
      image. */
  function CaseDirs(fs: FileSystem, d: string): (r: set<string>)
    ensures forall c :: c in r ==> InDir(d, c) && c in fs.dirs && Glob(fs, c, ImageExt)
    ensures forall c :: InDir(d, c) && c in fs.dirs && Glob(fs, c, ImageExt) ==> c in r
  {
    var r := set p | p in fs.Entries() && MatchesNested(fs, d, p, ImageExt) :: Dirname(p);
    CaseDirsSound(fs, d, r);
    CaseDirsComplete(fs, d, r);
    r
  }

  lemma CaseDirsSound(fs: FileSystem, d: string, r: set<string>)
    requires r == set p | p in fs.Entries() && MatchesNested(fs, d, p, ImageExt) :: Dirname(p)
    ensures forall c :: c in r ==> InDir(d, c) && c in fs.dirs && Glob(fs, c, ImageExt)
  {
    forall c | c in r ensures InDir(d, c) && c in fs.dirs && Glob(fs, c, ImageExt) {
      var p :| p in fs.Entries() && MatchesNested(fs, d, p, ImageExt) && c == Dirname(p);
      var k := LastIndexOf(p, '/').value;
      var parent := p[..k];
      InDirShape(d, parent);
      MatchParent(parent, p, ImageExt);
    }
  }

  lemma CaseDirsComplete(fs: FileSystem, d: string, r: set<string>)
    requires r == set p | p in fs.Entries() && MatchesNested(fs, d, p, ImageExt) :: Dirname(p)
    ensures forall c :: InDir(d, c) && c in fs.dirs && Glob(fs, c, ImageExt) ==> c in r
  {
    forall c | InDir(d, c) && c in fs.dirs && Glob(fs, c, ImageExt) ensures c in r {
      var p :| p in fs.Entries() && Matches(c, p, ImageExt);
      InDirShape(d, c);
      MatchParent(c, p, ImageExt);
      assert p[..|c|] == c;
      assert MatchesNested(fs, d, p, ImageExt);
    }
  }

  /** Case discovery: `d` itself when images sit directly in it, otherwise
      the sorted, duplicate-free list of its sub-directories holding images;
      an error when the argument is empty, is not a directory, or no image
      is found at either level. */
  method DiscoverCases(fs: FileSystem, d: string) returns (r: Result<seq<string>, CliError>)
    ensures r == Failure(NoInputArgument) <==> d == ""
    ensures r == Failure(InputNotADirectory(d)) <==> d != "" && !IsDir(fs, d)
    ensures r.Success? <==> d != "" && IsDir(fs, d) && (Glob(fs, d, ImageExt) || CaseDirs(fs, d) != {})
    ensures d != "" && IsDir(fs, d) && Glob(fs, d, ImageExt) ==> r == Success([d])
    ensures r == Failure(NoImageData) <==>
      d != "" && IsDir(fs, d) && !Glob(fs, d, ImageExt) && CaseDirs(fs, d) == {}
    ensures r.Success? && !Glob(fs, d, ImageExt) ==>
      && StrictlySorted(r.value)
      && |r.value| > 0
      && forall c :: c in r.value <==> InDir(d, c) && c in fs.dirs && Glob(fs, c, ImageExt)
  {
    if d == "" {
      return Failure(NoInputArgument);
    }
    if !IsDir(fs, d) {
      return Failure(InputNotADirectory(d));
    }
    if Glob(fs, d, ImageExt) {
      return Success([d]);
    }
    var all := CaseDirs(fs, d);
    if all == {} {
      return Failure(NoImageData);
    }
    var sorted := SortedList(all);
    var c :| c in all;
    assert c in sorted;
    return Success(sorted);
  }

  /** `sorted(...)` of a set of paths: the strictly increasing list of its
      elements. */
  method SortedList(all: set<string>) returns (sorted: seq<string>)
    ensures StrictlySorted(sorted)
    ensures forall c :: c in sorted <==> c in all
  {
    var remaining := all;
    sorted := [];
    while remaining != {}
      invariant StrictlySorted(sorted)
      invariant forall c :: c in sorted || c in remaining <==> c in all
      decreases remaining
    {
      var c :| c in remaining;
      sorted := InsertSorted(sorted, c);
      remaining := remaining - {c};
    }
  }

  /** The `-s` suffix with a trailing `.nii.gz` removed: a suffix ending in
      `.nii.gz` is cut at the FIRST occurrence of `.nii.gz`
      (`split('.nii.gz')[0]`), anything else is kept as it is. */
  function NormalizeSuffix(s: string): (r: string)
    ensures !EndsWith(s, ImageExt) ==> r == s
    ensures EndsWith(s, ImageExt) ==>
      && StartsWith(s, r)
      && OccursAt(s, ImageExt, |r|)
      && forall j: nat :: !OccursAt(r, ImageExt, j)
  {
    if EndsWith(s, ImageExt) then
      assert OccursAt(s, ImageExt, |s| - |ImageExt|);
      BeforeFirst(s, ImageExt)
    else s
  }

  /** Normalising a suffix twice is the same as normalising it once. */
  lemma NormalizeSuffixIdempotent(s: string)
    ensures NormalizeSuffix(NormalizeSuffix(s)) == NormalizeSuffix(s)
  {
    var r := NormalizeSuffix(s);
    if EndsWith(s, ImageExt) {
      assert !EndsWith(r, ImageExt) by {
        if |ImageExt| <= |r| {
          assert !OccursAt(r, ImageExt, |r| - |ImageExt|);
        }
      }
    }
  }

  /** The output-directory argument, when given, must be an existing
      directory. */
  function CheckOutDir(fs: FileSystem, outDir: Option<string>): (r: Result<Option<string>, CliError>)
    ensures r.Success? ==> r.value == outDir
    ensures r.Failure? <==> outDir.Some? && outDir.value != "" && !IsDir(fs, outDir.value)
  {
    if outDir.Some? && outDir.value != "" && !IsDir(fs, outDir.value)
    then Failure(OutputNotADirectory(outDir.value))
    else Success(outDir)
  }
}

=== FILE: paths.dfy ===
/** The three `os.path` functions the scripts use, as `posixpath` defines
    them for string paths. */
module Paths {
  import opened Wrappers
  import opened Text

  /** `os.path.join(a, b)`: an absolute `b` replaces `a`; otherwise a single
      separator is inserted unless `a` is empty or already ends in one. */
  function Join(a: string, b: string): (r: string)
    ensures EndsWith(r, b)
    ensures !StartsWith(b, "/") ==> StartsWith(r, a)
  {
    if StartsWith(b, "/") then b
    else if a == "" || EndsWith(a, "/") then a + b
    else a + "/" + b
  }

  /** `os.path.basename(p)`: the text after the last separator. */
  function Basename(p: string): (r: string)
    ensures '/' !in r && EndsWith(p, r)
    ensures |r| == |p| || p[|p| - |r| - 1] == '/'
  {
    AfterLast(p, '/')
  }

  /** `os.path.dirname(p)`: everything up to the last separator, with the
      trailing separators removed unless nothing but separators is left. */
  function Dirname(p: string): (r: string)
    ensures StartsWith(p, r)
  {
    var i := match LastIndexOf(p, '/') case None => 0 case Some(k) => k + 1;
    var head := p[..i];
    if head != "" && !AllChar(head, '/') then RStrip(head, '/') else head
  }

  /** The last separator of `a + "/" + b` is the one inserted by the join
      when `b` holds none. */
  lemma {:induction false} LastSeparatorOfJoin(a: string, b: string)
    requires '/' !in b
    ensures LastIndexOf(a + "/" + b, '/') == Some(|a|)
  {
    if b == [] {
      assert a + "/" + b == a + "/";
      LastIndexOfSnoc(a, '/', '/');
    } else {
      var init := b[..|b| - 1];
      var x := b[|b| - 1];
      assert '/' !in init by {
        assert forall j :: 0 <= j < |init| ==> init[j] == b[j];
      }
      LastSeparatorOfJoin(a, init);
      assert a + "/" + b == (a + "/" + init) + [x];
      LastIndexOfSnoc(a + "/" + init, x, '/');
    }
  }

  /** Joining a name without separators, then a relative name: one
      separator goes between them, the result starts with the first
      argument and ends with the two names around that separator. */
  lemma JoinTwice(a: string, b: string, c: string)
    requires b != "" && '/' !in b
    requires c != "" && c[0] != '/'
    ensures Join(Join(a, b), c) == Join(a, b) + "/" + c
    ensures StartsWith(Join(Join(a, b), c), a)
    ensures EndsWith(Join(Join(a, b), c), b + "/" + c)
  {
    var ab := Join(a, b);
    JoinNameShape(a, b);
    JoinRelative(ab, c);
    assert ab + "/" + c == ab + ("/" + c);
    assert b + "/" + c == b + ("/" + c);
    StartsWithAppend(ab, a, "/" + c);
    EndsWithAppend(ab, b, "/" + c);
  }

  /** Joining a name without separators gives a path that starts with the
      directory, ends with the name, and so does not end in a separator. */
  lemma JoinNameShape(a: string, b: string)
    requires b != "" && '/' !in b
    ensures StartsWith(Join(a, b), a) && EndsWith(Join(a, b), b)
    ensures Join(a, b) != "" && Join(a, b)[|Join(a, b)| - 1] != '/'
  {
    var ab := Join(a, b);
    assert b[0] in b;
    assert ab[|ab| - 1] == b[|b| - 1] by {
      assert ab[|ab| - |b|..] == b;
    }
    assert b[|b| - 1] in b;
  }

  /** Joining a relative name onto a path that does not end in a separator
      inserts exactly one separator. */
  lemma JoinRelative(a: string, c: string)
    requires a != "" && a[|a| - 1] != '/'
    requires c != "" && c[0] != '/'
    ensures Join(a, c) == a + "/" + c
  {
    assert !StartsWith(c, "/");
    assert !EndsWith(a, "/");
  }

  /** Joining a directory with an entry name and splitting the result again
      gives back both parts. */
  lemma JoinSplit(a: string, b: string)
    requires a != "" && a[|a| - 1] != '/'
    requires b != "" && '/' !in b
    ensures Join(a, b) == a + "/" + b
    ensures LastIndexOf(a + "/" + b, '/') == Some(|a|)
    ensures Dirname(Join(a, b)) == a
    ensures Basename(Join(a, b)) == b
  {
    var p := a + "/" + b;
    LastSeparatorOfJoin(a, b);
    var head := p[..|a| + 1];
    assert head == a + "/";
    assert head[..|head| - 1] == a;
    assert !AllChar(head, '/') by {
      assert head[|a| - 1] == a[|a| - 1];
    }
    assert RStrip(head, '/') == a;
    assert p[|a| + 1..] == b;
  }
}

=== FILE: text.dfy ===
/** The Python string operations the scripts rely on, with their exact
    semantics: `str.find`, `str.rfind`, `str.split(sep)[0]`,
    `str.split(sep)[-1]`, `str.rstrip(c)`, `str.endswith` and the ordering
    `<` that `sorted` uses on strings. */
module Text {
  import opened Wrappers

  predicate StartsWith(s: string, p: string) {
    |p| <= |s| && s[..|p|] == p
  }

  predicate EndsWith(s: string, p: string) {
    |p| <= |s| && s[|s| - |p|..] == p
  }

  /** `p` occurs in `s` starting at index `i`. */
  predicate OccursAt(s: string, p: string, i: nat) {
    i + |p| <= |s| && s[i..i + |p|] == p
  }

  /** Appending keeps a prefix a prefix. */
  lemma StartsWithAppend(s: string, p: string, t: string)
    requires StartsWith(s, p)
    ensures StartsWith(s + t, p)
  {
    assert (s + t)[..|p|] == s[..|p|];
  }

  /** Appending the same text to a string and to one of its suffixes keeps
      the suffix relation. */
  lemma EndsWithAppend(s: string, p: string, t: string)
    requires EndsWith(s, p)
    ensures EndsWith(s + t, p + t)
  {
    assert (s + t)[|s + t| - |p + t|..] == s[|s| - |p|..] + t;
  }

  /** The first occurrence of `p` in `s` at or after index `i`. */
  function FindFrom(s: string, p: string, i: nat): (r: Option<nat>)
    ensures r.Some? ==> i <= r.value && OccursAt(s, p, r.value)
    ensures r.Some? ==> forall j: nat :: i <= j < r.value ==> !OccursAt(s, p, j)
    ensures r.None? ==> forall j: nat :: i <= j ==> !OccursAt(s, p, j)
    decreases |s| - i
  {
    if i + |p| > |s| then None
    else if s[i..i + |p|] == p then Some(i)
    else FindFrom(s, p, i + 1)
  }

  /** `s.find(p)`, with `None` in place of Python's -1. */
  function Find(s: string, p: string): (r: Option<nat>)
    ensures r.Some? ==> OccursAt(s, p, r.value)
    ensures r.Some? ==> forall j: nat :: j < r.value ==> !OccursAt(s, p, j)
    ensures r.None? ==> forall j: nat :: !OccursAt(s, p, j)
  {
    FindFrom(s, p, 0)
  }

  /** `s.split(sep)[0]`: the text before the first occurrence of `sep`, or
      all of `s` when `sep` does not occur. */
  function BeforeFirst(s: string, sep: string): (r: string)
    requires sep != ""
    ensures StartsWith(s, r)
    ensures forall j: nat :: !OccursAt(r, sep, j)
    ensures r == s || OccursAt(s, sep, |r|)
    ensures forall j: nat :: j < |r| ==> !OccursAt(s, sep, j)
  {
    match Find(s, sep)
    case None => s
    case Some(k) =>
      var r := s[..k];
      assert forall j: nat :: OccursAt(r, sep, j) ==> OccursAt(s, sep, j) && j < k by {
        forall j: nat | OccursAt(r, sep, j)
          ensures OccursAt(s, sep, j) && j < k
        {
          assert r[j..j + |sep|] == s[j..j + |sep|];
        }
      }
      r
  }

  /** `s.rfind(c)`, with `None` in place of Python's -1. */
  function LastIndexOf(s: string, c: char): (r: Option<nat>)
    ensures r.Some? ==> r.value < |s| && s[r.value] == c
    ensures r.Some? ==> forall j :: r.value < j < |s| ==> s[j] != c
    ensures r.None? ==> c !in s
  {
    if |s| == 0 then None
    else if s[|s| - 1] == c then Some(|s| - 1)
    else
      var r := LastIndexOf(s[..|s| - 1], c);
      assert r.None? ==> forall j :: 0 <= j < |s| ==> s[j] != c by {
        if r.None? {
          forall j | 0 <= j < |s| ensures s[j] != c {
            if j < |s| - 1 {
              assert s[j] == s[..|s| - 1][j];
            }
          }
        }
      }
      r
  }

  /** Appending one character moves `rfind` to the end exactly when that
      character is the one searched for. */
  lemma LastIndexOfSnoc(s: string, x: char, c: char)
    ensures LastIndexOf(s + [x], c) == if x == c then Some(|s|) else LastIndexOf(s, c)
  {
    assert (s + [x])[..|s|] == s;
  }

  /** `s.split(c)[-1]`, which is also what `os.path.basename` returns for
      `c == '/'`: the text after the last `c`, or all of `s`. */
  function AfterLast(s: string, c: char): (r: string)
    ensures c !in r
    ensures EndsWith(s, r)
    ensures |r| == |s| || s[|s| - |r| - 1] == c
  {
    match LastIndexOf(s, c)
    case None => s
    case Some(k) =>
      var r := s[k + 1..];
      assert forall j :: 0 <= j < |r| ==> r[j] == s[k + 1 + j];
      r
  }

  /** `s` consists of the character `c` only (vacuously true of ""). */
  predicate AllChar(s: string, c: char) {
    forall i :: 0 <= i < |s| ==> s[i] == c
  }

  /** `s.rstrip(c)` for a single character `c`. */
  function RStrip(s: string, c: char): (r: string)
    ensures StartsWith(s, r)
    ensures AllChar(s[|r|..], c)
    ensures r == "" || r[|r| - 1] != c
  {
    if |s| == 0 || s[|s| - 1] != c then s
    else
      var r := RStrip(s[..|s| - 1], c);
      assert s[|r|..] == s[..|s| - 1][|r|..] + [c];
      r
  }

  /** Python's `<` on strings: lexicographic by code point, a proper prefix
      sorting first. */
  predicate Less(a: string, b: string) {
    if |a| == 0 then |b| > 0
    else |b| > 0 && (a[0] < b[0] || (a[0] == b[0] && Less(a[1..], b[1..])))
  }

  lemma {:induction false} LessIrreflexive(a: string)
    ensures !Less(a, a)
  {
    if |a| > 0 {
      LessIrreflexive(a[1..]);
    }
  }

  lemma {:induction false} LessTransitive(a: string, b: string, c: string)
    requires Less(a, b) && Less(b, c)
    ensures Less(a, c)
  {
    if |a| > 0 && a[0] == b[0] && b[0] == c[0] {
      LessTransitive(a[1..], b[1..], c[1..]);
    }
  }

  lemma {:induction false} LessTotal(a: string, b: string)
    ensures a == b || Less(a, b) || Less(b, a)
  {
    if |a| > 0 && |b| > 0 && a[0] == b[0] {
      LessTotal(a[1..], b[1..]);
      if a[1..] == b[1..] {
        assert a == [a[0]] + a[1..] && b == [b[0]] + b[1..];
      }
    }
  }

  /** Strictly increasing under `Less`: what `sorted(set(...))` produces. */
  predicate StrictlySorted(xs: seq<string>) {
    forall i, j :: 0 <= i < j < |xs| ==> Less(xs[i], xs[j])
  }

  /** Inserts `x` into a strictly sorted sequence, keeping it strictly
      sorted and dropping `x` if it is already there. */
  function InsertSorted(xs: seq<string>, x: string): (r: seq<string>)
    requires StrictlySorted(xs)
    ensures StrictlySorted(r)
    ensures forall y :: y in r <==> y in xs || y == x
  {
    if xs == [] then [x]
    else if x == xs[0] then xs
    else if Less(x, xs[0]) then
      assert forall j :: 0 < j < |xs| ==> Less(x, xs[j]) by {
        forall j | 0 < j < |xs| ensures Less(x, xs[j]) {
          LessTransitive(x, xs[0], xs[j]);
        }
      }
      [x] + xs
    else
      LessTotal(x, xs[0]);
      var t := InsertSorted(xs[1..], x);
      assert forall y :: y in t ==> Less(xs[0], y) by {
        forall y | y in t ensures Less(xs[0], y) {
          if y != x {
            var j :| 0 <= j < |xs[1..]| && xs[1..][j] == y;
            assert xs[j + 1] == y;
          }
        }
      }
      [xs[0]] + t
  }

  /** Two strictly sorted sequences with the same elements are equal: the
      result of `sorted(set(...))` is determined by the set alone. */
  lemma {:induction false} SortedUnique(xs: seq<string>, ys: seq<string>)
    requires StrictlySorted(xs) && StrictlySorted(ys)
    requires forall y :: y in xs <==> y in ys
    ensures xs == ys
    decreases |xs|
  {
    if xs != [] {
      assert xs[0] in ys;
    }
    if ys != [] {
      assert ys[0] in xs;
    }
    if xs != [] && ys != [] {
      var a, b := xs[0], ys[0];
      if a != b {
        assert a in ys;
        assert b in xs;
        var i :| 0 <= i < |ys| && ys[i] == a;
        var j :| 0 <= j < |xs| && xs[j] == b;
        assert i > 0 && j > 0;
        LessTransitive(a, b, a);
        LessIrreflexive(a);
        assert false;
      }
      forall y ensures y in xs[1..] <==> y in ys[1..] {
        if y in xs[1..] {
          var i :| 0 <= i < |xs[1..]| && xs[1..][i] == y;
          assert Less(a, xs[i + 1]);
          LessIrreflexive(a);
          assert y in ys;
          var k :| 0 <= k < |ys| && ys[k] == y;
          assert ys[1..][k - 1] == y;
        }
        if y in ys[1..] {
          var i :| 0 <= i < |ys[1..]| && ys[1..][i] == y;
          assert Less(b, ys[i + 1]);
          LessIrreflexive(b);
          assert y in xs;
          var k :| 0 <= k < |xs| && xs[k] == y;
          assert xs[1..][k - 1] == y;
        }
      }
      SortedUnique(xs[1..], ys[1..]);
      assert xs == [a] + xs[1..] && ys == [b] + ys[1..];
    }
  }

  /** `xs` keeps some of the elements of `ys`, in their original order. */
  predicate IsSubsequence<T(==)>(xs: seq<T>, ys: seq<T>)
    decreases |ys|
  {
    if xs == [] then true
    else if ys == [] then false
    else if xs[|xs| - 1] == ys[|ys| - 1] then IsSubsequence(xs[..|xs| - 1], ys[..|ys| - 1])
    else IsSubsequence(xs, ys[..|ys| - 1])
  }
}

=== FILE: wrappers.dfy ===
/** Option and Result, the failure-carrying datatypes every other module uses.
    A Python exception raised by the scripts becomes a `Failure` whose error
    value names the exception's cause. */
module Wrappers {

  datatype Option<+T> = None | Some(value: T)

  datatype Result<+T, +E> = Success(value: T) | Failure(error: E) {

    predicate IsFailure() {
      Failure?
    }

    function PropagateFailure<U>(): Result<U, E>
      requires Failure?
    {
      Failure(error)
    }

    function Extract(): T
      requires Success?
    {
      value
    }
  }
}
